=== FILE: README.md ===
# MCP protocol layer of the Billy.dk agent, in Dafny

This project models the small protocol layer that the Billy.dk agent
repository uses to talk to a Model Context Protocol (MCP) server, and it
proves properties of that model. The layer covers:

- **JSON-RPC client** (`BillyDkMcpClient`): request envelopes per section 4
  of the JSON-RPC 2.0 specification, with a per-client id counter threaded
  as explicit state. Responses are unwrapped per section 5: `error` wins over
  `result`. The MCP 2024-11-05 `initialize`, `tools/list` and `tools/call`
  requests are included (module `JsonRpc`).
- **Endpoint URLs**: the `/mcp` normaliser, the `/mcp/sse` builder, and the
  SSE agent's conditional inclusion of one toolset (module `Endpoints`).
- **Tool discovery and dispatch**: a `tools/list` result becomes an ordered
  catalog with defaults. Each tool gets a zero-argument or a pass-through
  call form. The text of a `tools/call` result is extracted, and every
  failure becomes an error string (module `ToolCatalog`).
- **Event-stream line decoding**:
  - the JavaScript `parseSSEResponse`, which takes the first `data: ` line
    that parses;
  - the per-line classifier of the diagnosis script, which strips lines,
    skips blanks and stops after 10 counted lines (module `SseLines`).

  Both loosely follow "Interpreting an event stream" in section 9.2.6 of the
  WHATWG HTML Living Standard. The code's deviations are modelled as written:
  - exactly `"data: "` with one space;
  - no joining of multi-line data;
  - no meaning for `id:` or `retry:`.
- **JavaScript SSE client** (`McpSseClient`): session set-up, the session
  guard and the `tools/call` envelope (module `AdkClient`).
- **Response matching by id** in the two test scripts: the only correlation
  logic the repository contains (module `ResponseMatching`).
- **Stream patch**: it replaces only `content[0].text` of a tool result, and
  re-frames bare JSON lines (module `ResponsePatch`).
- **Invoice summariser** `format_billy_response`: it is total, and it renders
  at most 10 invoices (module `InvoiceFormat`).

JSON values are an abstract tree (`JsonValue.Json`). Parsing and
serialising JSON text, and Python `str()` of floats, lists and dicts, are
left uninterpreted: they are fields of a `JsonValue.Runtime` record passed
to the functions. Python's dynamic behaviour that decides control flow is
modelled once, in `PyOps`:
- `in` on dicts, lists and strings;
- `.get` on a non-dict;
- truthiness;
- `==` between `int`, `float` and `bool`.

An exception is a `Failure` carrying its message. The network, the clock
(`Date.now()`) and the stream are function parameters.

Some notes on how the model reads the code:

- The code keeps no table of pending requests and reaps no timed-out
  ones. Each test script waits for one answer by scanning the messages it
  received for the awaited id, and that scan is all the model covers of
  matching answers to requests.
- JavaScript `initialize` stores the `mcp-session-id` header before it
  checks it. A re-initialisation whose reply lacks the header therefore
  drops the session the client had
  (`AdkClient.ReinitializeWithoutHeaderLosesSession`).
- The test scripts stop waiting, with failure, at the first payload that
  is JSON but not an object (`.get` raises and a bare `except: break` ends
  the wait), even when the answer follows it
  (`ResponseMatching.EarlierAbortHidesAnswer`). Python's `==` also lets
  `"id": true` pass for id 1 (`ResponseMatching.TrueIdPassesForOne`).
- A discovered tool's `required` list is read but never enforced
  (`ToolCatalog.RequiredNotEnforced`).

## Model

| member | source | states |
|---|---|---|
| JsonRpc.Envelope | billy_agent/agent.py:26-31 | the envelope reads back as a request with `jsonrpc` "2.0", exactly the given id and method, and params defaulting to `{}` |
| JsonRpc.Begin | billy_agent/agent.py:24-32 | a request takes the client's current id and the counter advances by exactly one before sending; the endpoint is unchanged |
| JsonRpc.Unwrap | billy_agent/agent.py:46-49 | a body with `error` is a failure "MCP Error: ..." even when it has a `result`; otherwise the `result` member, or `{}` when absent; a non-object body fails |
| JsonRpc.ReadReply | billy_agent/agent.py:43-49 | transport failures and statuses from 400 up fail; a blank body (which aiohttp decodes to `None`) fails with "argument of type 'NoneType' is not iterable"; otherwise an undecodable body fails and a decoded one is unwrapped |
| JsonRpc.ReadReplyOfServerReply | billy_agent/agent.py:43-49 | with a parser that inverts the serialiser, a serialised JSON-RPC reply is read back as its `result`, or as "MCP Error: " and its `error` object |
| JsonRpc.MakeRequest | billy_agent/agent.py:24-53 | the id is consumed whether or not the exchange succeeds; the sent envelope carries the pre-call id, method and params |
| JsonRpc.Initialize | billy_agent/agent.py:55-70 | `initialize` sends protocol version "2024-11-05", empty capabilities and client "adk-billy-client" 1.0.0, and consumes one id |
| JsonRpc.ListTools | billy_agent/agent.py:72-74 | `tools/list` is sent with empty params and consumes one id |
| JsonRpc.CallTool | billy_agent/agent.py:76-81 | `tools/call` carries `{name, arguments}` with arguments defaulting to `{}` |
| JsonRpc.RunCallsIds | billy_agent/agent.py:22-32 | in a sequence of requests on one client, the i-th carries id `nextId + i` and leaves the counter at `nextId + i + 1`, failed or not |
| JsonRpc.IdsStrictlyIncrease | billy_agent/agent.py:20-32 | a new client's first id is 1 and its ids strictly increase, so none is reused |
| JsonRpc.GetClient | billy_agent/agent.py:90-104 | the client is on the normalised `/mcp` URL with id 1 spent on `initialize`; it exists exactly when `initialize` succeeds |
| Endpoints.McpUrl | billy_agent/agent.py:97-100 | the result ends in `/mcp` and starts with the base; it equals the base exactly when the base ends in `/mcp`, else it is base + `/mcp` |
| Endpoints.McpUrlIdempotent | billy_agent/agent.py:97-100 | normalising twice equals normalising once |
| Endpoints.SseUrl | agents/billy_agent/agent.py:24-27 | the SSE URL ends in `/mcp/sse`, has the configured URL as prefix, and is the `/mcp` normalisation followed by `/sse` |
| Endpoints.SseUrlOfNormalised | agents/billy_agent/agent.py:24-27 | building the SSE URL from an already-normalised URL gives the same endpoint |
| Endpoints.CreateMcpAgent | agents/billy_agent/agent.py:16-53 | the agent is always built; it has exactly one toolset iff the URL is non-empty and the toolset constructor does not raise, and that toolset is bound to the SSE URL |
| ToolCatalog.ShapeOf | billy_agent/agent.py:233-237 | absent or falsy `properties` give the zero-argument form, any truthy value the forwarding form; a non-object schema raises |
| ToolCatalog.RequiredNotEnforced | billy_agent/agent.py:233-256 | adding, changing or removing `required` never changes the call form |
| ToolCatalog.Describe | billy_agent/agent.py:197-205 | name defaults to "unknown", description to "Tool: <name>", schema to `{}`; it fails exactly for non-object entries, non-object schemas and non-string names |
| ToolCatalog.DescribeAll | billy_agent/agent.py:197-210 | one descriptor per entry, in server order; success exactly when every entry can be described |
| ToolCatalog.ParseCatalog | billy_agent/agent.py:187-210 | a result without `tools` gives an empty catalog; a list gives exactly one descriptor per listed tool, in order |
| ToolCatalog.DiscoverTools | billy_agent/agent.py:175-225 | the catalog is used exactly when connecting, listing and parsing all succeed; otherwise the hard-coded tools |
| ToolCatalog.DiscoveryListsWithIdTwo | billy_agent/agent.py:182-185 | discovery's `tools/list` carries id 2, because the fresh client spent id 1 on `initialize` |
| ToolCatalog.ExtractText | billy_agent/agent.py:244-246 | missing or falsy `content` gives `str(result)`; a list whose first item is a dict gives its `text`, or `str(result)` when it has none; later items are ignored |
| ToolCatalog.ToolCallEnvelope | billy_agent/agent.py:241-242 | a tool call from a fresh client is a `tools/call` with id 2, the tool name and the arguments |
| ToolCatalog.SuccessfulCallReturnsText | billy_agent/agent.py:257-263 | a result whose first content item has `text` makes the tool return exactly that text |
| ToolCatalog.ErrorReplyBecomesErrorText | billy_agent/agent.py:244-248 | a server error reply becomes the tool's error prefix followed by "MCP Error: " and the error object |
| ToolCatalog.ToolArguments | billy_agent/agent.py:237-259 | the zero-argument form refuses any keyword argument; accepted arguments are forwarded verbatim |
| ToolCatalog.CallAndExtract | billy_agent/agent.py:240-248 | a tool function never raises: when connecting, the `tools/call` exchange or the text extraction fails with e (the first that fails), the answer is the error prefix followed by e; otherwise it is the extracted text |
| ToolCatalog.FailedPostBecomesErrorText | billy_agent/agent.py:240-248 | a `tools/call` POST that is unreachable, answered with a status from 400 up, or answered with a blank body or one that is not JSON gives a string starting with the error prefix; an unreachable server is named by its transport error, a blank body by the `TypeError` of `"error" in None` |
| ToolCatalog.StringContentBecomesErrorText | billy_agent/agent.py:244-248 | a non-empty string `content` makes `.get` fail on its first character, and the answer is the prefix followed by "'str' object has no attribute 'get'" |
| ToolCatalog.InvokeDynamicTool | billy_agent/agent.py:227-269 | a dynamic tool raises only on a call its form refuses; otherwise each failing stage gives "❌ Error calling <name>: <error>" and a successful call the extracted text |
| ToolCatalog.DynamicToolNeverRaises | billy_agent/agent.py:240-248 | a failed connection becomes "❌ Error calling <name>: <error>" instead of an exception |
| ToolCatalog.InvokeFixedTool | billy_agent/agent.py:107-173 | each of the five hard-coded functions calls its own remote tool with its arguments; each failing stage gives that function's own error text followed by the error, and a successful call the extracted text |
| ToolCatalog.CreateInvoiceDefaultsToDraft | billy_agent/agent.py:132-141 | `create_invoice` without a state posts `createInvoice` with id 2 and the state "draft" |
| ToolCatalog.ListInvoicesEnvelope | billy_agent/agent.py:107-111 | the hard-coded `list_invoices` posts `tools/call` for `listInvoices` with id 2 and `{}` arguments |
| SseLines.DataPayload | mcp_server_spec/adk-example.js:95-97 | a payload exists exactly for lines starting with "data: ", and the line is that prefix followed by the payload |
| SseLines.FirstAccepted | mcp_server_spec/adk-example.js:94-103 | the index returned is the first line that is a data line whose payload parses; none exactly when no line is |
| SseLines.ParseSseLines | mcp_server_spec/adk-example.js:91-106 | the result is the parsed payload of the first accepted line; it fails with "No valid JSON found in SSE response" exactly when no line is accepted |
| SseLines.SkippedLineIsInert | mcp_server_spec/adk-example.js:94-101 | inserting a non-data line or an unparsable data line anywhere never changes the outcome |
| SseLines.DataWithoutSpaceIgnored | mcp_server_spec/adk-example.js:95 | "data:" without the space is never a data line |
| SseLines.FirstParsedPayloadWins | mcp_server_spec/adk-example.js:94-101 | an example of the first-accepted rule: after an event line and a broken data line, the next parsable payload is returned and later lines are not used |
| Strings.SplitJoin | mcp_server_spec/adk-example.js:92 | splitting on '\n' gives back exactly the lines that were joined, when no line contains a newline |
| SseLines.CheckPayload | diagnose_server_messages.py:59-74 | an unparsable payload is reported, not fatal; for an object only the presence of the key `jsonrpc` matters, not its value; a list is marked exactly when the string "jsonrpc" is one of its items, a string exactly when it contains "jsonrpc"; numbers, booleans and null make the check raise |
| SseLines.ClassifyLine | diagnose_server_messages.py:55-84 | "data: " gives payload `line[6:]`, then "event: " gives `line[7:]`, then ":" a comment, else other; it fails exactly when the line is a data line whose check raises |
| Strings.StripIdempotent | diagnose_server_messages.py:43 | stripping a stripped line changes nothing |
| SseLines.Kept | diagnose_server_messages.py:43-46 | a raw line contributes its stripped form, or nothing exactly when that is blank |
| SseLines.ReadLines | diagnose_server_messages.py:41-91 | reports match the counted (stripped, non-blank) lines in order; at most 10; without an exception it reads min(counted, 10) lines; an exception stops it at the offending line |
| SseLines.Diagnose | diagnose_server_messages.py:41-91 | the same for the diagnosis script's classifier: blank lines do not count and processing stops after 10 counted lines |
| AdkClient.NewSseClient | mcp_server_spec/adk-example.js:9-12 | a new client has no session |
| AdkClient.InitializeRequest | mcp_server_spec/adk-example.js:18-36 | `initialize` goes to `<base>/sse` with id 1, protocol 2024-11-05 and client "google-adk-client", without a session header |
| AdkClient.Initialize | mcp_server_spec/adk-example.js:17-51 | a reply that is not ok fails with its status and leaves the client alone; an ok reply stores the header; success exactly when the stored id is non-empty, and the returned id is the stored one |
| AdkClient.ReinitializeWithoutHeaderLosesSession | mcp_server_spec/adk-example.js:43-47 | an ok re-initialisation without the header throws and drops the previous session |
| AdkClient.CallToolRequest | mcp_server_spec/adk-example.js:61-77 | the call goes to `<base>/messages` with the base headers plus `MCP-Session-Id` equal to the stored id, and a `tools/call` body with `{name, arguments}` |
| AdkClient.CallTool | mcp_server_spec/adk-example.js:56-86 | without a session it throws before any request; a reply that is not ok throws with its status; otherwise the body is decoded as an event stream |
| AdkClient.NoSessionNoFetch | mcp_server_spec/adk-example.js:57-59 | without a session the outcome does not depend on the server at all |
| AdkClient.CallAfterInitializeCarriesSession | mcp_server_spec/adk-example.js:44-66 | after a successful `initialize`, every tool call carries the returned session id |
| AdkClient.HelperRequests | mcp_server_spec/adk-example.js:111-134 | each helper sends `tools/call` for its tool, named "listInvoices", "getInvoice", "createInvoice" or "totalInvoiceAmount"; `listInvoices` sends `{}`, `createInvoice` forwards its data untouched, `createInvoice` without data sends `callTool`'s default `{}`, `getInvoice` sends exactly `{invoiceId}` and `getTotalInvoiceAmount` exactly `{startDate, endDate}` with the given values, a parameter left `undefined` being dropped from the object as `JSON.stringify` does |
| AdkClient.HelperNeedsSession | mcp_server_spec/adk-example.js:111-134 | a helper on a client without a session fails like `callTool` |
| ResponseMatching.Matches | archive/test_files/test_tools_timeout.py:123-125 | the answer matches exactly when `jsonrpc` is "2.0", the id equals the awaited one under Python `==` and `result` is present (plus `protocolVersion` for `initialize`); non-objects raise |
| ResponseMatching.ErrorResponseNeverMatches | archive/test_files/test_tools_timeout.py:123-125 | an error response, with no `result`, never matches |
| ResponseMatching.OtherIdNeverMatches | archive/test_files/test_tools_timeout.py:123-125 | a response for another id never matches |
| ResponseMatching.TrueIdPassesForOne | test_session_management.py:107-110 | `"id": true` passes for the `initialize` answer's id 1 |
| ResponseMatching.Judge | archive/test_files/test_tools_timeout.py:119-132 | non-`data: ` lines and undecodable payloads are skipped; a message is the answer exactly when it is a data line whose payload parses and matches |
| ResponseMatching.Scan | archive/test_files/test_tools_timeout.py:116-135 | the scan ends at the first decisive message, reporting whether it was the answer or raised; it runs out exactly when every message is skipped |
| ResponseMatching.ScanStopsAtFirstDecisive | archive/test_files/test_tools_timeout.py:129-135 | after skipped messages, a decisive message ends the scan at its index, whatever follows |
| ResponseMatching.ScanIgnoresLater | archive/test_files/test_tools_timeout.py:129-135 | once the answer has been found, later messages are never read |
| ResponseMatching.Wait | archive/test_files/test_tools_timeout.py:113-140 | the wait ends at the first answer or exception, every earlier message having been skipped; it runs out exactly when every message is skipped |
| ResponseMatching.EarlierAbortHidesAnswer | archive/test_files/test_tools_timeout.py:113-140 | a payload that raises before the answer ends the wait in failure at its index |
| ResponseMatching.WaitIgnoresLaterMessages | archive/test_files/test_tools_timeout.py:129-135 | scanning stops at the first match: later messages never change the result |
| ResponseMatching.ToolsTimeoutRun | archive/test_files/test_tools_timeout.py:50-142 | without a session id nothing is posted; `initialize` and then `tools/list` go to `/mcp` with that same session id; the run passes exactly when both POSTs go through and the id-2 answer is found |
| ResponseMatching.Acknowledged | test_session_management.py:78-84 | the acknowledgement is accepted exactly when `result.status` is "message_sent_via_sse" or "sent"; the check completes exactly when the body decodes to a dict whose `result`, if present, is a dict, so a non-JSON body, a non-dict body or a non-dict `result` raises and any other status is only reported |
| ResponseMatching.SessionManagementRun | test_session_management.py:50-131 | without a session id nothing is posted; otherwise exactly one `initialize` is posted, and the wait runs exactly when the reply decodes and can be checked |
| ResponseMatching.AcknowledgementIsOnlyAWarning | test_session_management.py:80-84 | any two replies that decode to dicts with a dict or absent `result` give the same run, whatever status they report: an unexpected status is only a warning |
| ResponsePatch.FirstText | archive/old_implementations/agent_with_patches.py:35-41 | the text exists exactly for a dict `result` with a non-empty `content` list whose first item is a dict with a string `text` |
| ResponsePatch.ReplaceFirstText | archive/old_implementations/agent_with_patches.py:48 | only `result.content[0].text` changes: every other member, content item and item field is kept |
| ResponsePatch.ReplaceRestores | archive/old_implementations/agent_with_patches.py:48 | putting the old text back restores the document exactly |
| ResponsePatch.FormattedPayload | archive/old_implementations/agent_with_patches.py:32-53 | a rewrite happens exactly when the data is non-empty and parses, has the first-text shape, and that text parses |
| ResponsePatch.PatchMessage | archive/old_implementations/agent_with_patches.py:28-73 | framed messages keep their event and are rewritten only as above; unframed JSON is re-framed as "message" with identical data; everything else passes through |
| ResponsePatch.RewriteChangesOnlyFirstText | archive/old_implementations/agent_with_patches.py:42-49 | with a parser that inverts the serialiser, a rewritten message decodes to the original with only `content[0].text` replaced by the summary |
| ResponsePatch.ReframedDataIsNotFormatted | archive/old_implementations/agent_with_patches.py:59-67 | a re-framed bare JSON line keeps its data byte for byte, even when it holds a tool result |
| ResponsePatch.UntouchedMessagesPassThrough | archive/old_implementations/agent_with_patches.py:51-73 | opaque messages, and framed messages with empty or unparsable data, pass through unchanged |
| ResponsePatch.PatchStream | archive/old_implementations/agent_with_patches.py:28-73 | exactly one output message per input message, in the same order |
| InvoiceFormat.Entry | archive/old_implementations/agent_with_patches.py:104-109 | an entry starts with "<i>. Invoice #<no>" and ends with a blank line |
| InvoiceFormat.Entries | archive/old_implementations/agent_with_patches.py:95-109 | success exactly when every item is a dict, and then the text is the blocks of the items one after the other, item k numbered `first + k`; otherwise the error is the `.get` failure of the first non-dict |
| InvoiceFormat.Blocks | archive/old_implementations/agent_with_patches.py:95-109 | the reference for the loop: one block per item, block k being the entry numbered `first + k` for item k |
| InvoiceFormat.Shown | archive/old_implementations/agent_with_patches.py:95 | the rendered part is the first min(n, 10) items |
| InvoiceFormat.FormatList | archive/old_implementations/agent_with_patches.py:87-114 | an empty list gives "No invoices found."; otherwise the text is the header with the full length, the blocks of the first min(n, 10) items numbered 1, 2, ... in order, and "... and N-10 more invoices." when n > 10; it fails exactly when one of the first 10 items is not a dict, with the `.get` error of the first such item |
| InvoiceFormat.RenderList | archive/old_implementations/agent_with_patches.py:93-114 | the same for a non-empty list given by its length and its rendered part: header, numbered blocks and trailer, or the first non-dict's `.get` error |
| InvoiceFormat.Truncate | archive/old_implementations/agent_with_patches.py:135 | `s[:n]` is the prefix of exactly n characters of a longer string, and the whole string when it is short enough |
| InvoiceFormat.FormatBillyResponse | archive/old_implementations/agent_with_patches.py:84-135 | a list gives the list branch's text when it formats (the header, the numbered blocks of its first 10 items and the trailer) and the error text with the list branch's error when it does not; a dict with `invoiceNo` gives the single summary; other dicts give "📋 Billy.dk Data:" and the indented dump; anything else `str(data)` |
| InvoiceFormat.OnlyShownInvoicesMatter | archive/old_implementations/agent_with_patches.py:95-112 | two lists of equal length that agree on their first 10 items give the same list outcome, text or error, whatever follows |
| InvoiceFormat.LaterItemsNeverInspected | archive/old_implementations/agent_with_patches.py:95-112 | items past the tenth may be anything; with 10 dicts first, formatting succeeds and reports the rest in the trailer |
| InvoiceFormat.FormattingErrorShape | archive/old_implementations/agent_with_patches.py:134-135 | the error text starts with the message and shows at most 500 characters of the raw data |
| InvoiceFormat.EarlyNonDictFails | archive/old_implementations/agent_with_patches.py:95-96 | a non-dict among the first ten makes the list branch raise a `.get` error, which is that item's own when every earlier item is a dict |
| InvoiceFormat.FirstNonDictNamedInErrorText | archive/old_implementations/agent_with_patches.py:95-135 | when item k is the first non-dict and k < 10, the summary is exactly the error text with item k's `.get` error |
| InvoiceFormat.EarlyNonDictGivesErrorText | archive/old_implementations/agent_with_patches.py:134-135 | such a list is summarised by the error text, bounded by the 500-character truncation |
| InvoiceFormat.MissingFieldsShowDefaults | archive/old_implementations/agent_with_patches.py:96-102 | missing fields show 'Draft', 0, 'DKK', 'N/A', 'unknown', 'N/A' and 'No description' |
| InvoiceFormat.EmptyInvoiceNumberLine | archive/old_implementations/agent_with_patches.py:104 | an entry without `invoiceNo` is headed "Invoice #Draft" |
| InvoiceFormat.EmptyInvoiceDefaults | archive/old_implementations/agent_with_patches.py:105-109 | an example for the empty invoice: the remaining lines of its entry show the defaults |
| InvoiceFormat.SingleInvoiceDefaults | archive/old_implementations/agent_with_patches.py:118-127 | an example for the empty invoice: the single-invoice summary uses the same defaults and has no customer line |

## Left out

- Network, stream and thread I/O are parameters or left out: aiohttp, requests, node-fetch, the SSE connections, the listener thread, the queue and the `sleep` polling. The messages a stream delivered before the deadline are a parameter.
- The polling deadlines and the diagnosis script's 10-second limit are not modelled, because they depend on wall-clock time.
- JSON text grammar, `json.dumps` and `JSON.stringify` output, and Python `str()` of floats, lists and dicts are uninterpreted functions. Number formatting of `grossAmount` is therefore not reasoned about.
- The `Date.now()` request id of `callTool` is a parameter, because it is clock-dependent.
- The installation of the stream patch (archive/old_implementations/agent_with_patches.py:75-82) is left out: it replaces a function in a library that is not part of this model.
- LLM and agent construction are left out: the model, the instructions, the `root_agent` fallback and the event-loop juggling are foreign calls. `Endpoints.CreateMcpAgent` keeps only the agent's name and tool list.
- The console output of every script is left out, because it is print-only.
- HTTP header names are matched exactly. Header case-insensitivity and the joining of repeated headers are not modelled.
- `requests.iter_lines` is not modelled. The model starts from the lines the test scripts' listener puts on its queue; the listener's own `if line:` keeps empty lines off it.
- The diagnosis script's status check (anything but 200 ends it) is left out, because it only happens before any line is read.
- Exception texts raised inside libraries (HTTP status errors, JSON decode errors) are placeholders. Only the texts built by the modelled code are exact.
- JsonRpc.ReadReply: the text of `raise_for_status()` and of the JSON decode error are placeholders, because their library formats are not part of this model. A blank body is recognised as aiohttp's `bytes.strip()` sees it, as ASCII whitespace. It also decodes any body with a status below 400, whereas aiohttp's `response.json()` raises when the reply's Content-Type is not `application/json`, even for valid JSON; reply headers are not part of the model.
- SseLines.Diagnose: lines are already text, so the `UnicodeDecodeError` that `line.decode('utf-8')` raises on invalid UTF-8 is not modelled.
- ResponsePatch.PatchMessage: assigning the rewritten `message.data` is assumed to succeed. A message type whose `data` is read-only would raise into the bare `except`, and the message would pass through unformatted; the message classes belong to a library that is not part of this model.
- ToolCatalog.InvokeDynamicTool: the `TypeError` text for keyword arguments given to the zero-argument form does not name the argument, because the model's arguments are an unordered map and Python names the first one in call order.
- AdkClient.HelperRequests: a helper argument is either left out (`undefined`) or a JSON value. Other JavaScript values, such as functions, symbols or `NaN`, which `JSON.stringify` drops or turns into `null`, are not modelled.
- SseLines.ReadLines: for an aborted read, it states only that the classifier raised on the next counted line, not the text of the exception, because the text does not leave the script's outer handler.
- ResponsePatch.RewriteChangesOnlyFirstText: it holds only for a runtime whose parser inverts its serialiser, because the real `json` module is not part of this model.
- The other scripts are left out. They probe connectivity, the environment or imports, and apart from the data-line handling covered here they contain no logic.

=== FILE: adk_client.dfy ===
/** The JavaScript SSE client of mcp_server_spec/adk-example.js
    (`McpSseClient`): a session-establishing `initialize` POST to `/sse`
    whose reply carries the session id in the `mcp-session-id` header, then
    `tools/call` POSTs to `/messages` carrying that id, answered as an event
    stream. The HTTP `fetch` is a parameter; `Date.now()`, which supplies the
    `tools/call` id, is a parameter too. */
module AdkClient {
  import opened Wrappers
  import opened Strings
  import opened JsonValue
  import JsonRpc
  import SseLines

  const DefaultBaseUrl := "http://localhost:3000"
  const ClientName := "google-adk-client"
  const SessionHeader := "MCP-Session-Id"
  const NotInitialized := "Session not initialized. Call initialize() first."
  const NoSessionId := "No session ID received"

  /** The client: its base URL and the session id, `None` for `null`. */
  datatype SseClient = SseClient(baseUrl: string, sessionId: Option<string>)

  /** `new McpSseClient(baseUrl)`: no session yet. */
  function NewSseClient(baseUrl: string): (c: SseClient)
    ensures !HasSession(c)
  {
    SseClient(baseUrl, None)
  }

  /** JavaScript truthiness of `this.sessionId`: `null` and the empty string
      are false. */
  predicate HasSession(c: SseClient) {
    c.sessionId.Some? && c.sessionId.value != ""
  }

  /** An HTTP POST as `fetch` is asked to send it. */
  datatype HttpRequest = HttpRequest(url: string, headers: seq<(string, string)>, body: Json)

  /** What `fetch` produced: the status, the value of the `mcp-session-id`
      response header (`None` when absent), and the body text; or a rejected
      promise. */
  datatype FetchReply =
    | FetchReply(status: int, sessionHeader: Option<string>, text: string)
    | FetchFailed(reason: string)

  /** `response.ok`: a status in 200..299. */
  predicate Ok(reply: FetchReply) {
    reply.FetchReply? && 200 <= reply.status <= 299
  }

  /** The headers every POST of the client sends. */
  const BaseHeaders: seq<(string, string)> :=
    [("Content-Type", "application/json"), ("Accept", "application/json, text/event-stream")]

  /** The `initialize` POST: to `<baseUrl>/sse`, id 1, protocol 2024-11-05,
      client "google-adk-client" 1.0.0, no session header. */
  function InitializeRequest(c: SseClient): (req: HttpRequest)
    ensures req.url == c.baseUrl + "/sse"
    ensures JsonRpc.ReadRequest(req.body) ==
            Some(JsonRpc.Request(1, "initialize", JsonRpc.InitializeParams(ClientName, "1.0.0")))
    ensures forall h :: h in req.headers ==> h.0 != SessionHeader
  {
    HttpRequest(c.baseUrl + "/sse", BaseHeaders,
                JsonRpc.Envelope(1, "initialize", Some(JsonRpc.InitializeParams(ClientName, "1.0.0"))))
  }

  /** `initialize()`: the client after the call and the session id returned
      (`Failure` where it throws). The stored id is overwritten with the
      header as soon as the reply is ok, before the check that throws when
      it is missing or empty. */
  function Initialize(c: SseClient, fetch: HttpRequest -> FetchReply): (r: (SseClient, Result<string, string>))
    ensures r.0.baseUrl == c.baseUrl
    ensures !Ok(fetch(InitializeRequest(c))) ==> r.0 == c && r.1.Failure?
    ensures fetch(InitializeRequest(c)).FetchReply? && !Ok(fetch(InitializeRequest(c))) ==>
              r.1 == Failure("Initialization failed: " + IntToString(fetch(InitializeRequest(c)).status))
    ensures Ok(fetch(InitializeRequest(c))) ==> r.0.sessionId == fetch(InitializeRequest(c)).sessionHeader
    ensures r.1.Success? <==> Ok(fetch(InitializeRequest(c))) && HasSession(r.0)
    ensures r.1.Success? ==> r.0.sessionId == Some(r.1.value)
    ensures Ok(fetch(InitializeRequest(c))) && !HasSession(r.0) ==> r.1 == Failure(NoSessionId)
  {
    var reply := fetch(InitializeRequest(c));
    match reply
    case FetchFailed(reason) => (c, Failure(reason))
    case FetchReply(status, header, _) =>
      if !Ok(reply) then (c, Failure("Initialization failed: " + IntToString(status)))
      else
        var c' := c.(sessionId := header);
        if !HasSession(c') then (c', Failure(NoSessionId))
        else (c', Success(c'.sessionId.value))
  }

  /** A re-initialisation whose ok reply lacks the header throws and also
      drops the session the client had. */
  lemma ReinitializeWithoutHeaderLosesSession(c: SseClient, fetch: HttpRequest -> FetchReply)
    requires HasSession(c)
    requires Ok(fetch(InitializeRequest(c))) && fetch(InitializeRequest(c)).sessionHeader.None?
    ensures Initialize(c, fetch).1 == Failure(NoSessionId)
    ensures !HasSession(Initialize(c, fetch).0)
  {
  }

  /** The `tools/call` params: the tool name and the arguments, `{}` when
      the caller passes none. */
  function ToolCallParams(toolName: string, args: Option<Json>): map<string, Json> {
    map["name" := JStr(toolName), "arguments" := args.GetOr(EmptyObject)]
  }

  /** The `tools/call` POST of a client that has a session: to
      `<baseUrl>/messages`, with the session id in the `MCP-Session-Id`
      header and `requestId` (the caller's `Date.now()`) as the id. */
  function CallToolRequest(c: SseClient, toolName: string, args: Option<Json>, requestId: int): (req: HttpRequest)
    requires HasSession(c)
    ensures req.url == c.baseUrl + "/messages"
    ensures (SessionHeader, c.sessionId.value) in req.headers
    ensures forall h :: h in BaseHeaders ==> h in req.headers
    ensures JsonRpc.ReadRequest(req.body) == Some(JsonRpc.Request(requestId, "tools/call", ToolCallParams(toolName, args)))
  {
    var headers := BaseHeaders + [(SessionHeader, c.sessionId.value)];
    assert headers[|BaseHeaders|] == (SessionHeader, c.sessionId.value);
    HttpRequest(c.baseUrl + "/messages", headers,
                JsonRpc.Envelope(requestId, "tools/call", Some(ToolCallParams(toolName, args))))
  }

  /** `callTool(toolName, args)`: without a session it throws before any
      request; a reply that is not ok throws with its status; otherwise the
      body is decoded as an event stream (SseLines.ParseSseResponse). */
  function CallTool(c: SseClient, toolName: string, args: Option<Json>, requestId: int,
                    parse: string -> Option<Json>, fetch: HttpRequest -> FetchReply): (r: Result<Json, string>)
    ensures !HasSession(c) ==> r == Failure(NotInitialized)
    ensures HasSession(c) ==>
              var reply := fetch(CallToolRequest(c, toolName, args, requestId));
              && (reply.FetchReply? && !Ok(reply) ==> r == Failure("Tool call failed: " + IntToString(reply.status)))
              && (Ok(reply) ==> r == SseLines.ParseSseResponse(parse, reply.text))
              && (reply.FetchFailed? ==> r == Failure(reply.reason))
  {
    if !HasSession(c) then Failure(NotInitialized)
    else
      var reply := fetch(CallToolRequest(c, toolName, args, requestId));
      match reply
      case FetchFailed(reason) => Failure(reason)
      case FetchReply(status, _, text) =>
        if !Ok(reply) then Failure("Tool call failed: " + IntToString(status))
        else SseLines.ParseSseResponse(parse, text)
  }

  /** Without a session no request is made: the outcome does not depend on
      what the server would answer. */
  lemma NoSessionNoFetch(c: SseClient, toolName: string, args: Option<Json>, requestId: int,
                         parse: string -> Option<Json>, fetch1: HttpRequest -> FetchReply,
                         fetch2: HttpRequest -> FetchReply)
    requires !HasSession(c)
    ensures CallTool(c, toolName, args, requestId, parse, fetch1) == CallTool(c, toolName, args, requestId, parse, fetch2)
  {
  }

  /** After a successful `initialize`, a tool call is sent with the session
      id the server issued. */
  lemma CallAfterInitializeCarriesSession(c: SseClient, toolName: string, args: Option<Json>, requestId: int,
                                          fetch: HttpRequest -> FetchReply)
    requires Initialize(c, fetch).1.Success?
    ensures var c' := Initialize(c, fetch).0;
            && HasSession(c')
            && (SessionHeader, Initialize(c, fetch).1.value) in CallToolRequest(c', toolName, args, requestId).headers
  {
  }

  /** The convenience methods of the client, each a `callTool`. A JS
      argument the caller leaves out is `undefined`, written `None`. */
  datatype Helper =
    | ListInvoices
    | GetInvoice(invoiceId: Option<Json>)
    | CreateInvoice(invoiceData: Option<Json>)
    | GetTotalInvoiceAmount(startDate: Option<Json>, endDate: Option<Json>)

  /** The member `key: value` of an object literal as `JSON.stringify`
      writes it: a member whose value is `undefined` is dropped. */
  function Member(key: string, value: Option<Json>): map<string, Json> {
    if value.Some? then map[key := value.value] else map[]
  }

  /** The tool name and arguments each helper passes to `callTool`; an
      `undefined` `invoiceData` is passed on as such, so `callTool`'s
      default `{}` applies. */
  function HelperCall(h: Helper): (string, Option<Json>) {
    match h
    case ListInvoices => ("listInvoices", None)
    case GetInvoice(invoiceId) => ("getInvoice", Some(JObj(Member("invoiceId", invoiceId))))
    case CreateInvoice(invoiceData) => ("createInvoice", invoiceData)
    case GetTotalInvoiceAmount(startDate, endDate) =>
      ("totalInvoiceAmount", Some(JObj(Member("startDate", startDate) + Member("endDate", endDate))))
  }

  /** Running a helper. */
  function RunHelper(c: SseClient, h: Helper, requestId: int,
                     parse: string -> Option<Json>, fetch: HttpRequest -> FetchReply): Result<Json, string>
  {
    CallTool(c, HelperCall(h).0, HelperCall(h).1, requestId, parse, fetch)
  }

  /** What a helper sends: a `tools/call` for its camel-case tool, with
      `listInvoices` sending `{}`, `createInvoice` forwarding the invoice
      data untouched (`{}` when it is left out), and the other two sending
      exactly their given parameters, an omitted one as a missing member. */
  lemma HelperRequests(c: SseClient, h: Helper, requestId: int)
    requires HasSession(c)
    ensures var (name, args) := HelperCall(h);
            var req := JsonRpc.ReadRequest(CallToolRequest(c, name, args, requestId).body);
            && req.Some? && req.value.methodName == "tools/call"
            && req.value.params["name"] == JStr(name)
            && (h.ListInvoices? ==> name == "listInvoices")
            && (h.CreateInvoice? ==> name == "createInvoice")
            && (h.GetInvoice? ==> name == "getInvoice")
            && (h.GetTotalInvoiceAmount? ==> name == "totalInvoiceAmount")
            && (h.ListInvoices? ==> req.value.params["arguments"] == EmptyObject)
            && (h.CreateInvoice? && h.invoiceData.Some? ==> req.value.params["arguments"] == h.invoiceData.value)
            && (h.CreateInvoice? && h.invoiceData.None? ==> req.value.params["arguments"] == EmptyObject)
            && (h.GetInvoice? ==>
                  && req.value.params["arguments"].JObj?
                  && var sent := req.value.params["arguments"].fields;
                  && sent.Keys <= {"invoiceId"}
                  && ("invoiceId" in sent <==> h.invoiceId.Some?)
                  && (h.invoiceId.Some? ==> sent["invoiceId"] == h.invoiceId.value))
            && (h.GetTotalInvoiceAmount? ==>
                  && req.value.params["arguments"].JObj?
                  && var sent := req.value.params["arguments"].fields;
                  && sent.Keys <= {"startDate", "endDate"}
                  && ("startDate" in sent <==> h.startDate.Some?)
                  && (h.startDate.Some? ==> sent["startDate"] == h.startDate.value)
                  && ("endDate" in sent <==> h.endDate.Some?)
                  && (h.endDate.Some? ==> sent["endDate"] == h.endDate.value))
  {
  }

  /** A helper on a client without a session fails like `callTool`. */
  lemma HelperNeedsSession(c: SseClient, h: Helper, requestId: int,
                           parse: string -> Option<Json>, fetch: HttpRequest -> FetchReply)
    requires !HasSession(c)
    ensures RunHelper(c, h, requestId, parse, fetch) == Failure(NotInitialized)
  {
  }
}

=== FILE: endpoints.dfy ===
/** The endpoint URL builders: the `/mcp` normaliser of the HTTP client and
    the `/mcp/sse` builder of the SSE agent, plus the agent's conditional
    inclusion of one SSE toolset. */
module Endpoints {
  import opened Strings

  const McpSuffix := "/mcp"
  const SseSuffix := "/sse"

  /** The HTTP JSON-RPC endpoint: a base already ending in `/mcp` is kept,
      any other base gets `/mcp` appended. */
  function McpUrl(base: string): (u: string)
    ensures EndsWith(u, McpSuffix)
    ensures StartsWith(u, base)
    ensures u == base <==> EndsWith(base, McpSuffix)
    ensures !EndsWith(base, McpSuffix) ==> u == base + McpSuffix
  {
    StartsWithConcat(base, McpSuffix);
    EndsWithConcat(base, McpSuffix);
    if EndsWith(base, McpSuffix) then base else base + McpSuffix
  }

  /** Normalising is idempotent. */
  lemma McpUrlIdempotent(base: string)
    ensures McpUrl(McpUrl(base)) == McpUrl(base)
  {
  }

  /** The SSE endpoint: `/sse` after a URL ending in `/mcp`, `/mcp/sse`
      after any other. */
  function SseUrl(url: string): (u: string)
    ensures EndsWith(u, McpSuffix + SseSuffix)
    ensures StartsWith(u, url)
    ensures u == McpUrl(url) + SseSuffix
  {
    var u := if EndsWith(url, McpSuffix) then url + SseSuffix else url + McpSuffix + SseSuffix;
    assert EndsWith(u, McpSuffix + SseSuffix) by {
      if EndsWith(url, McpSuffix) {
        EndsWithExtend(url, McpSuffix, SseSuffix);
      } else {
        assert u == url + (McpSuffix + SseSuffix);
        EndsWithConcat(url, McpSuffix + SseSuffix);
      }
    }
    assert StartsWith(u, url) by {
      assert u == url + u[|url|..];
      StartsWithConcat(url, u[|url|..]);
    }
    u
  }

  /** The two builders agree: the SSE endpoint never has `/mcp` twice when
      the configured URL already ends in `/mcp`. */
  lemma SseUrlOfNormalised(url: string)
    ensures SseUrl(McpUrl(url)) == SseUrl(url)
  {
    McpUrlIdempotent(url);
  }

  /** One MCP toolset bound to an SSE endpoint. */
  datatype Toolset = McpToolset(sseUrl: string)

  /** The part of the constructed agent the model keeps: its name and tools. */
  datatype Agent = Agent(name: string, tools: seq<Toolset>)

  const AgentName := "billy_invoice_agent"

  /** `create_mcp_agent`: a toolset is considered only for a non-empty URL;
      `toolsetRaises(u)` says whether constructing the toolset for endpoint
      `u` throws, in which case the agent is built without it. */
  function CreateMcpAgent(url: string, toolsetRaises: string -> bool): (a: Agent)
    ensures a.name == AgentName
    ensures |a.tools| <= 1
    ensures |a.tools| == 1 <==> url != "" && !toolsetRaises(SseUrl(url))
    ensures forall t :: t in a.tools ==> t.sseUrl == SseUrl(url)
  {
    var tools :=
      if url != "" then
        var sse := SseUrl(url);
        if toolsetRaises(sse) then [] else [McpToolset(sse)]
      else [];
    Agent(AgentName, tools)
  }
}

=== FILE: invoice_format.dfy ===
/** `format_billy_response` of archive/old_implementations/agent_with_patches.py:
    the human-readable summary a Billy.dk tool result is turned into. It is
    total: a list whose rendered part holds a non-dict makes `.get` raise,
    and the exception is caught and shown with a truncated dump of the data. */
module InvoiceFormat {
  import opened Wrappers
  import opened Strings
  import opened JsonValue
  import opened PyOps

  /** At most this many invoices of a list are rendered. */
  const ShownInvoices := 10
  /** At most this many characters of the raw data are shown on error. */
  const RawDataLimit := 500

  const NoInvoices := "No invoices found."
  const Clipboard := "\U{1F4CB}"

  /** The fields read from an invoice, with their fallbacks. */
  function InvoiceNo(f: map<string, Json>): Json { DictGet(f, "invoiceNo", JStr("Draft")) }
  function Amount(f: map<string, Json>): Json { DictGet(f, "grossAmount", JInt(0)) }
  function Currency(f: map<string, Json>): Json { DictGet(f, "currencyId", JStr("DKK")) }
  function EntryDate(f: map<string, Json>): Json { DictGet(f, "entryDate", JStr("N/A")) }
  function State(f: map<string, Json>): Json { DictGet(f, "state", JStr("unknown")) }
  function ContactId(f: map<string, Json>): Json { DictGet(f, "contactId", JStr("N/A")) }
  function Description(f: map<string, Json>): Json { DictGet(f, "lineDescription", JStr("No description")) }

  /** The list header: it reports the full length of the list. */
  function ListHeader(n: nat): string {
    Clipboard + " Found " + NatToString(n) + " invoices:\n\n"
  }

  /** The trailer after the rendered invoices of a longer list. */
  function Trailer(more: nat): string {
    "... and " + NatToString(more) + " more invoices.\n"
  }

  /** The lines of the block for invoice number `i` of a list. */
  function EntryLines(rt: Runtime, i: nat, f: map<string, Json>): seq<string> {
    [ NatToString(i) + ". Invoice #" + Str(rt, InvoiceNo(f)),
      "   \U{1F4B0} Amount: " + Str(rt, Amount(f)) + " " + Str(rt, Currency(f)),
      "   \U{1F4C5} Date: " + Str(rt, EntryDate(f)),
      "   \U{1F4CA} Status: " + Str(rt, State(f)),
      "   \U{1F464} Customer: " + Str(rt, ContactId(f)),
      "   \U{1F4DD} Description: " + Str(rt, Description(f)) ]
  }

  /** The block for invoice number `i` of a list: its lines, each ended by
      a newline, and a blank line. */
  function Entry(rt: Runtime, i: nat, f: map<string, Json>): (e: string)
    ensures StartsWith(e, NatToString(i) + ". Invoice #" + Str(rt, InvoiceNo(f)) + "\n")
    ensures EndsWith(e, "\n\n")
  {
    var lines := EntryLines(rt, i, f);
    var e := Join(lines, '\n') + "\n\n";
    assert e == (lines[0] + "\n") + (Join(lines[1..], '\n') + "\n\n");
    StartsWithConcat(lines[0] + "\n", Join(lines[1..], '\n') + "\n\n");
    EndsWithConcat(Join(lines, '\n'), "\n\n");
    e
  }

  /** `EndsWith` carries over from a suffix to the whole. */
  lemma EndsWithSuffix(s: string, t: string, p: string)
    requires EndsWith(s, t) && EndsWith(t, p)
    ensures EndsWith(s, p)
  {
    assert s[|s| - |t|..][|t| - |p|..] == s[|s| - |p|..];
  }

  /** Every item is a dict, so every `.get` succeeds. */
  predicate AllDicts(invoices: seq<Json>) {
    forall k :: 0 <= k < |invoices| ==> invoices[k].JObj?
  }

  /** Item `k` is the first item that is not a dict: the loop raises there. */
  predicate FirstNonDictAt(invoices: seq<Json>, k: int) {
    && 0 <= k < |invoices|
    && !invoices[k].JObj?
    && forall j :: 0 <= j < k ==> invoices[j].JObj?
  }

  /** The blocks of a list of dicts as the loop numbers them: item `k` gets
      number `first + k`. */
  function Blocks(rt: Runtime, first: nat, invoices: seq<Json>): (b: seq<string>)
    requires AllDicts(invoices)
    ensures |b| == |invoices|
    ensures forall k :: 0 <= k < |invoices| ==> b[k] == Entry(rt, first + k, invoices[k].fields)
  {
    seq(|invoices|, k requires 0 <= k < |invoices| => Entry(rt, first + k, invoices[k].fields))
  }

  /** The loop over `invoices`, numbering from `first`: the blocks one after
      the other, or the `.get` error of the first non-dict. */
  function Entries(rt: Runtime, first: nat, invoices: seq<Json>): (r: Result<string, string>)
    ensures r.Success? <==> AllDicts(invoices)
    ensures r.Success? ==> r.value == Concat(Blocks(rt, first, invoices))
    ensures r.Failure? ==> exists k :: FirstNonDictAt(invoices, k) && r.error == NoGet(invoices[k])
    decreases |invoices|
  {
    if |invoices| == 0 then
      assert Blocks(rt, first, invoices) == [];
      Success("")
    else
      match invoices[0]
      case JObj(f) =>
        var tail := invoices[1..];
        assert forall k :: 1 <= k < |invoices| ==> invoices[k] == tail[k - 1];
        (match Entries(rt, first + 1, tail)
         case Success(rest) =>
           BlocksFront(rt, first, invoices);
           Success(Entry(rt, first, f) + rest)
         case Failure(e) =>
           FirstNonDictPastDict(invoices, e);
           Failure(e))
      case _ =>
        assert FirstNonDictAt(invoices, 0);
        Failure(NoGet(invoices[0]))
  }

  /** The blocks of a list of dicts are its first block, numbered `first`,
      followed by the blocks of the rest, numbered from `first + 1`. */
  lemma BlocksFront(rt: Runtime, first: nat, invoices: seq<Json>)
    requires |invoices| > 0 && AllDicts(invoices)
    ensures AllDicts(invoices[1..])
    ensures Concat(Blocks(rt, first, invoices))
            == Entry(rt, first, invoices[0].fields) + Concat(Blocks(rt, first + 1, invoices[1..]))
  {
    var all, rest := Blocks(rt, first, invoices), Blocks(rt, first + 1, invoices[1..]);
    BlocksShift(rt, first, invoices);
    SeqFront(all, rest);
    ConcatFront(all[0], rest);
  }

  /** Block `k + 1` of a list is block `k` of its tail. */
  lemma BlocksShift(rt: Runtime, first: nat, invoices: seq<Json>)
    requires |invoices| > 0 && AllDicts(invoices)
    ensures AllDicts(invoices[1..])
    ensures forall k :: 1 <= k < |invoices| ==>
              Blocks(rt, first, invoices)[k] == Blocks(rt, first + 1, invoices[1..])[k - 1]
  {
    var tail := invoices[1..];
    assert forall k :: 1 <= k < |invoices| ==> tail[k - 1] == invoices[k];
  }

  /** A sequence is its head followed by the sequence its later elements form. */
  lemma SeqFront<T>(all: seq<T>, rest: seq<T>)
    requires |all| == |rest| + 1
    requires forall k :: 1 <= k < |all| ==> all[k] == rest[k - 1]
    ensures all == [all[0]] + rest
  {
  }

  /** Past a leading dict, the first non-dict of the rest is the first
      non-dict of the whole list. */
  lemma FirstNonDictPastDict(invoices: seq<Json>, e: string)
    requires |invoices| > 0 && invoices[0].JObj?
    requires exists k :: FirstNonDictAt(invoices[1..], k) && e == NoGet(invoices[1..][k])
    ensures exists k :: FirstNonDictAt(invoices, k) && e == NoGet(invoices[k])
  {
    var k :| FirstNonDictAt(invoices[1..], k) && e == NoGet(invoices[1..][k]);
    assert FirstNonDictAt(invoices, k + 1);
  }

  /** The rendered part of a list: its first ten items. */
  function Shown(invoices: seq<Json>): (s: seq<Json>)
    ensures |s| == if |invoices| < ShownInvoices then |invoices| else ShownInvoices
    ensures s == invoices[..|s|]
  {
    if |invoices| < ShownInvoices then invoices else invoices[..ShownInvoices]
  }

  /** What follows the blocks of a list of `total` items: the trailer when
      items were left out, nothing otherwise. */
  function MoreLine(total: nat): string {
    if total > ShownInvoices then Trailer(total - ShownInvoices) else ""
  }

  /** The list branch: `Failure` carries the message of the exception. A
      non-empty list is its header, the blocks of its first ten items
      numbered from 1, and the trailer. */
  function FormatList(rt: Runtime, invoices: seq<Json>): (r: Result<string, string>)
    ensures |invoices| == 0 ==> r == Success(NoInvoices)
    ensures r.Success? <==> AllDicts(Shown(invoices))
    ensures r.Success? && |invoices| > 0 ==>
              r.value == ListHeader(|invoices|) + Concat(Blocks(rt, 1, Shown(invoices))) + MoreLine(|invoices|)
    ensures r.Failure? ==> exists k :: FirstNonDictAt(Shown(invoices), k) && r.error == NoGet(invoices[k])
    ensures r.Success? && |invoices| > ShownInvoices ==> EndsWith(r.value, Trailer(|invoices| - ShownInvoices))
  {
    if |invoices| == 0 then Success(NoInvoices)
    else
      var shown := Shown(invoices);
      var r := RenderList(rt, |invoices|, shown);
      if r.Success? && |invoices| > ShownInvoices then
        EndsWithConcat(ListHeader(|invoices|) + Concat(Blocks(rt, 1, shown)), Trailer(|invoices| - ShownInvoices));
        r
      else r
  }

  /** A non-empty list of `total` items whose first items are `shown`:
      header, blocks, and the trailer when items were left out. */
  function RenderList(rt: Runtime, total: nat, shown: seq<Json>): (r: Result<string, string>)
    requires 0 < |shown| <= total
    requires |shown| == if total < ShownInvoices then total else ShownInvoices
    ensures r.Success? <==> AllDicts(shown)
    ensures r.Success? ==> r.value == ListHeader(total) + Concat(Blocks(rt, 1, shown)) + MoreLine(total)
    ensures r.Failure? ==> exists k :: FirstNonDictAt(shown, k) && r.error == NoGet(shown[k])
  {
    var body :- Entries(rt, 1, shown);
    Success(ListHeader(total) + body + MoreLine(total))
  }

  /** The lines of the summary of a single invoice (a dict with
      `invoiceNo`); unlike a list entry it has no customer line. */
  function SingleInvoiceLines(rt: Runtime, f: map<string, Json>): seq<string> {
    [ Clipboard + " Invoice #" + Str(rt, InvoiceNo(f)),
      "\U{1F4B0} Amount: " + Str(rt, Amount(f)) + " " + Str(rt, Currency(f)),
      "\U{1F4C5} Date: " + Str(rt, EntryDate(f)),
      "\U{1F4CA} Status: " + Str(rt, State(f)),
      "\U{1F4DD} Description: " + Str(rt, Description(f)) ]
  }

  /** The summary of a single invoice: its lines joined by newlines. */
  function SingleInvoice(rt: Runtime, f: map<string, Json>): string {
    Join(SingleInvoiceLines(rt, f), '\n')
  }

  /** Python's `s[:n]`. */
  function Truncate(s: string, n: nat): (t: string)
    ensures |t| <= n && |t| <= |s|
    ensures t == s[..|t|]
    ensures |s| <= n ==> t == s
    ensures |s| > n ==> |t| == n
  {
    if |s| <= n then s else s[..n]
  }

  /** The text of the `except` branch. */
  function FormattingError(rt: Runtime, data: Json, e: string): string {
    Clipboard + " Billy.dk response received (formatting error: " + e + ")\n\nRaw data: "
    + Truncate(Str(rt, data), RawDataLimit) + "..."
  }

  /** `format_billy_response(data)`. */
  function FormatBillyResponse(rt: Runtime, data: Json): (r: string)
    ensures data == JArr([]) ==> r == NoInvoices
    ensures data.JArr? && FormatList(rt, data.items).Success? ==> r == FormatList(rt, data.items).value
    ensures data.JArr? && FormatList(rt, data.items).Failure? ==>
              r == FormattingError(rt, data, FormatList(rt, data.items).error)
    ensures data.JObj? && "invoiceNo" in data.fields ==> r == SingleInvoice(rt, data.fields)
    ensures data.JObj? && "invoiceNo" !in data.fields ==> r == Clipboard + " Billy.dk Data:\n" + rt.dumpsIndented(data)
    ensures !data.JArr? && !data.JObj? ==> r == Str(rt, data)
  {
    match data
    case JArr(items) =>
      (match FormatList(rt, items)
       case Success(text) => text
       case Failure(e) => FormattingError(rt, data, e))
    case JObj(fields) =>
      if "invoiceNo" in fields then SingleInvoice(rt, fields)
      else Clipboard + " Billy.dk Data:\n" + rt.dumpsIndented(data)
    case _ => Str(rt, data)
  }

  /** Only the first ten items are rendered: two lists of the same length
      that agree on them are summarised identically, whatever follows. */
  lemma OnlyShownInvoicesMatter(rt: Runtime, xs: seq<Json>, ys: seq<Json>)
    requires |xs| == |ys|
    requires Shown(xs) == Shown(ys)
    ensures FormatList(rt, ys) == FormatList(rt, xs)
  {
    if |xs| > 0 {
      var rx := RenderList(rt, |xs|, Shown(xs));
      var ry := RenderList(rt, |ys|, Shown(ys));
      assert rx == ry;
    }
  }

  /** Items past the tenth are never looked at, so they may be anything:
      a non-dict there does not trigger the error text. */
  lemma LaterItemsNeverInspected(rt: Runtime, shown: seq<Json>, later: seq<Json>)
    requires |shown| == ShownInvoices
    requires forall k :: 0 <= k < |shown| ==> shown[k].JObj?
    ensures FormatList(rt, shown + later).Success?
    ensures |later| > 0 ==> EndsWith(FormatList(rt, shown + later).value, Trailer(|later|))
  {
    var all := shown + later;
    assert forall k :: 0 <= k < ShownInvoices ==> all[k] == shown[k];
  }

  /** The opening of the error text, up to the exception message. */
  const ErrorOpening := Clipboard + " Billy.dk response received (formatting error: "

  /** The error text is the opening, the message, and at most 500
      characters of the raw data. */
  lemma FormattingErrorShape(rt: Runtime, data: Json, e: string)
    ensures StartsWith(FormattingError(rt, data, e), ErrorOpening + e)
    ensures |FormattingError(rt, data, e)| <= |ErrorOpening + e + ")\n\nRaw data: "| + RawDataLimit + 3
  {
    var r := FormattingError(rt, data, e);
    var tail := ")\n\nRaw data: " + Truncate(Str(rt, data), RawDataLimit) + "...";
    assert r == (ErrorOpening + e) + tail;
    StartsWithConcat(ErrorOpening + e, tail);
  }

  /** A non-dict among the first ten items makes the list branch raise a
      `.get` error; when it is the first non-dict, the error is its own. */
  lemma EarlyNonDictFails(rt: Runtime, items: seq<Json>, k: nat)
    requires k < |items| && k < ShownInvoices && !items[k].JObj?
    ensures FormatList(rt, items).Failure?
    ensures StartsWith(FormatList(rt, items).error, "'")
    ensures (forall j :: 0 <= j < k ==> items[j].JObj?) ==> FormatList(rt, items).error == NoGet(items[k])
  {
    var shown := Shown(items);
    assert shown[k] == items[k];
    var e := FormatList(rt, items).error;
    var m :| FirstNonDictAt(shown, m) && e == NoGet(items[m]);
    assert e[..1] == "'";
    if forall j :: 0 <= j < k ==> items[j].JObj? {
      assert shown[m] == items[m];
      assert m == k;
    }
  }

  /** A non-dict among the first ten turns the whole summary into the error
      text, with at most 500 characters of the raw data. */
  lemma EarlyNonDictGivesErrorText(rt: Runtime, items: seq<Json>, k: nat)
    requires k < |items| && k < ShownInvoices && !items[k].JObj?
    ensures FormatList(rt, items).Failure?
    ensures var r := FormatBillyResponse(rt, JArr(items));
            && StartsWith(r, ErrorOpening + "'")
            && |r| <= |ErrorOpening + FormatList(rt, items).error + ")\n\nRaw data: "| + RawDataLimit + 3
  {
    EarlyNonDictFails(rt, items, k);
    var e := FormatList(rt, items).error;
    FormattingErrorShape(rt, JArr(items), e);
    StartsWithPrepend(ErrorOpening, e, "'");
    StartsWithTrans(FormattingError(rt, JArr(items), e), ErrorOpening + e, ErrorOpening + "'");
  }

  /** The error text names the `.get` error of the first non-dict among the
      first ten items, and no other. */
  lemma FirstNonDictNamedInErrorText(rt: Runtime, items: seq<Json>, k: nat)
    requires k < ShownInvoices && FirstNonDictAt(items, k)
    ensures FormatBillyResponse(rt, JArr(items)) == FormattingError(rt, JArr(items), NoGet(items[k]))
  {
    EarlyNonDictFails(rt, items, k);
  }

  /** A field missing from an invoice is shown as its fallback. */
  lemma MissingFieldsShowDefaults(rt: Runtime, f: map<string, Json>)
    ensures "invoiceNo" !in f ==> Str(rt, InvoiceNo(f)) == "Draft"
    ensures "grossAmount" !in f ==> Str(rt, Amount(f)) == "0"
    ensures "currencyId" !in f ==> Str(rt, Currency(f)) == "DKK"
    ensures "entryDate" !in f ==> Str(rt, EntryDate(f)) == "N/A"
    ensures "state" !in f ==> Str(rt, State(f)) == "unknown"
    ensures "contactId" !in f ==> Str(rt, ContactId(f)) == "N/A"
    ensures "lineDescription" !in f ==> Str(rt, Description(f)) == "No description"
  {
    assert IntToString(0) == "0";
  }

  /** An entry without `invoiceNo` is headed "Invoice #Draft". */
  lemma EmptyInvoiceNumberLine(rt: Runtime, i: nat)
    ensures EntryLines(rt, i, map[])[0] == NatToString(i) + ". Invoice #" + "Draft"
  {
    MissingFieldsShowDefaults(rt, map[]);
  }

  /** An example, for the empty invoice `{}`: every other missing field of a
      list entry falls back to its default (the general statement is
      `MissingFieldsShowDefaults`). */
  lemma EmptyInvoiceDefaults(rt: Runtime, i: nat)
    ensures EntryLines(rt, i, map[])[1..] ==
            [ "   \U{1F4B0} Amount: 0 DKK",
              "   \U{1F4C5} Date: N/A",
              "   \U{1F4CA} Status: unknown",
              "   \U{1F464} Customer: N/A",
              "   \U{1F4DD} Description: No description" ]
  {
    MissingFieldsShowDefaults(rt, map[]);
    var lines := EntryLines(rt, i, map[]);
    assert lines[1] == "   \U{1F4B0} Amount: 0 DKK";
    assert lines[2] == "   \U{1F4C5} Date: N/A";
    assert lines[3] == "   \U{1F4CA} Status: unknown";
    assert lines[4] == "   \U{1F464} Customer: N/A";
    assert lines[5] == "   \U{1F4DD} Description: No description";
  }

  /** An example, for the empty invoice `{}`: the single-invoice summary
      falls back to the same defaults. */
  lemma SingleInvoiceDefaults(rt: Runtime)
    ensures SingleInvoiceLines(rt, map["invoiceNo" := JStr("42")]) ==
            [ "\U{1F4CB} Invoice #42",
              "\U{1F4B0} Amount: 0 DKK",
              "\U{1F4C5} Date: N/A",
              "\U{1F4CA} Status: unknown",
              "\U{1F4DD} Description: No description" ]
  {
    var f := map["invoiceNo" := JStr("42")];
    MissingFieldsShowDefaults(rt, f);
    var lines := SingleInvoiceLines(rt, f);
    assert lines[0] == "\U{1F4CB} Invoice #42";
    assert lines[1] == "\U{1F4B0} Amount: 0 DKK";
    assert lines[2] == "\U{1F4C5} Date: N/A";
    assert lines[3] == "\U{1F4CA} Status: unknown";
    assert lines[4] == "\U{1F4DD} Description: No description";
  }
}

=== FILE: json_rpc.dfy ===
/** The JSON-RPC 2.0 client of billy_agent/agent.py (`BillyDkMcpClient`):
    request envelopes (section 4 of the JSON-RPC 2.0 specification), response
    unwrapping (section 5), the per-client request-id counter threaded as
    explicit state, and the MCP 2024-11-05 `initialize`, `tools/list` and
    `tools/call` requests. The HTTP POST is a parameter. */
module JsonRpc {
  import opened Wrappers
  import opened Strings
  import opened JsonValue
  import opened PyOps
  import Endpoints

  const Version := "2.0"
  const ProtocolVersion := "2024-11-05"
  const ClientName := "adk-billy-client"
  const ClientVersion := "1.0.0"

  /** The client: its endpoint and the id its next request will carry. */
  datatype Client = Client(url: string, nextId: int)

  /** A new client; its first request uses id 1. */
  function NewClient(url: string): Client {
    Client(url, 1)
  }

  /** A request as a server reads it. */
  datatype Request = Request(id: int, methodName: string, params: map<string, Json>)

  /** The reference reading of a request object: exactly the members
      `jsonrpc`, `id`, `method`, `params`, with `jsonrpc` equal to "2.0", an
      integer id, a string method and object params. */
  function ReadRequest(j: Json): Option<Request> {
    if j.JObj?
       && j.fields.Keys == {"jsonrpc", "id", "method", "params"}
       && j.fields["jsonrpc"] == JStr(Version)
       && j.fields["id"].JInt?
       && j.fields["method"].JStr?
       && j.fields["params"].JObj?
    then Some(Request(j.fields["id"].i, j.fields["method"].s, j.fields["params"].fields))
    else None
  }

  /** The envelope `{jsonrpc, id, method, params or {}}`. */
  function Envelope(id: int, methodName: string, params: Option<map<string, Json>>): (e: Json)
    ensures ReadRequest(e) == Some(Request(id, methodName, params.GetOr(map[])))
  {
    var fields := map[
      "jsonrpc" := JStr(Version),
      "id" := JInt(id),
      "method" := JStr(methodName),
      "params" := JObj(params.GetOr(map[]))];
    assert fields.Keys == {"jsonrpc", "id", "method", "params"};
    JObj(fields)
  }

  /** The id a sent envelope carries (0 for anything that is not a request). */
  function SentId(e: Json): int {
    match ReadRequest(e)
    case Some(r) => r.id
    case None => 0
  }

  /** The first half of `_make_request`: the envelope takes the current id
      and the counter advances by one before anything is sent. */
  function Begin(c: Client, methodName: string, params: Option<map<string, Json>>): (r: (Client, Json))
    ensures r.0.url == c.url && r.0.nextId == c.nextId + 1
    ensures ReadRequest(r.1) == Some(Request(c.nextId, methodName, params.GetOr(map[])))
  {
    (c.(nextId := c.nextId + 1), Envelope(c.nextId, methodName, params))
  }

  /** What the POST produced: a status and body, or a transport failure. */
  datatype HttpReply = HttpReply(status: int, body: string) | Unreachable(reason: string)

  /** Unwrapping a decoded response body. A body with an `error` member is a
      failure even when it also has a `result`; otherwise the `result` member
      is returned, or `{}` when there is none. A body that is not an object
      makes Python raise. */
  function Unwrap(rt: Runtime, doc: Json): (r: Result<Json, string>)
    ensures doc.JObj? && "error" in doc.fields ==>
              r == Failure("MCP Error: " + Str(rt, doc.fields["error"]))
    ensures doc.JObj? && "error" !in doc.fields ==>
              r == Success(if "result" in doc.fields then doc.fields["result"] else EmptyObject)
    ensures !doc.JObj? ==> r.Failure?
  {
    var hasError :- In("error", doc);
    if hasError then
      var err :- Subscript(doc, "error");
      Failure("MCP Error: " + Str(rt, err))
    else
      Get(doc, "result", EmptyObject)
  }

  /** A body that `bytes.strip()` leaves empty: ASCII whitespace only. */
  predicate BlankBody(body: string) {
    forall i :: 0 <= i < |body| ==> body[i] in {' ', '\t', '\n', '\r', '\U{000B}', '\U{000C}'}
  }

  /** `raise_for_status()` (statuses from 400 up raise), `response.json()`,
      then `Unwrap`. aiohttp's `json()` gives `None` for a blank body, and
      `"error" in None` then raises. */
  function ReadReply(rt: Runtime, reply: HttpReply): (r: Result<Json, string>)
    ensures reply.Unreachable? ==> r.Failure?
    ensures reply.HttpReply? && reply.status >= 400 ==> r.Failure?
    ensures reply.HttpReply? && reply.status < 400 && BlankBody(reply.body) ==> r == Failure(NotIterable(JNull))
    ensures reply.HttpReply? && reply.status < 400 && !BlankBody(reply.body) ==>
              r == (match rt.parse(reply.body)
                    case None => Failure("response body is not JSON")
                    case Some(doc) => Unwrap(rt, doc))
  {
    match reply
    case Unreachable(reason) => Failure(reason)
    case HttpReply(status, body) =>
      if status >= 400 then Failure("HTTP status " + IntToString(status))
      else if BlankBody(body) then Unwrap(rt, JNull)
      else
        match rt.parse(body)
        case None => Failure("response body is not JSON")
        case Some(doc) => Unwrap(rt, doc)
  }

  /** A JSON-RPC response object for request `id`: a `result`, or an
      `error` object, as section 5 of the JSON-RPC 2.0 specification lays
      them out. */
  function ServerReply(id: int, outcome: Result<Json, Json>): Json {
    match outcome
    case Success(result) => JObj(map["jsonrpc" := JStr("2.0"), "id" := JInt(id), "result" := result])
    case Failure(error) => JObj(map["jsonrpc" := JStr("2.0"), "id" := JInt(id), "error" := error])
  }

  /** Reading back what a server sent: with a parser that inverts the
      serialiser, a successful reply yields its `result` and an error reply
      raises "MCP Error: " with the error object. */
  lemma ReadReplyOfServerReply(rt: Runtime, status: int, id: int, outcome: Result<Json, Json>)
    requires ParseInvertsDumps(rt)
    requires 200 <= status < 400 && !BlankBody(rt.dumps(ServerReply(id, outcome)))
    ensures outcome.Success? ==>
              ReadReply(rt, HttpReply(status, rt.dumps(ServerReply(id, outcome)))) == Success(outcome.value)
    ensures outcome.Failure? ==>
              ReadReply(rt, HttpReply(status, rt.dumps(ServerReply(id, outcome))))
                == Failure("MCP Error: " + Str(rt, outcome.error))
  {
  }

  /** One request/response exchange: the client after it, the envelope sent
      and the outcome (`Failure` where Python raises). */
  datatype Exchange = Exchange(client: Client, sent: Json, outcome: Result<Json, string>)

  /** `_make_request`: `post(url, envelope)` stands for the HTTP POST. The
      id is consumed whether or not the exchange succeeds. */
  function MakeRequest(rt: Runtime, c: Client, methodName: string, params: Option<map<string, Json>>,
                       post: (string, Json) -> HttpReply): (x: Exchange)
    ensures x.client.url == c.url && x.client.nextId == c.nextId + 1
    ensures ReadRequest(x.sent) == Some(Request(c.nextId, methodName, params.GetOr(map[])))
    ensures x.outcome == ReadReply(rt, post(c.url, x.sent))
  {
    var (c', envelope) := Begin(c, methodName, params);
    Exchange(c', envelope, ReadReply(rt, post(c.url, envelope)))
  }

  /** The `initialize` parameters: protocol version, empty capabilities and
      the client identity. */
  function InitializeParams(name: string, version: string): map<string, Json> {
    map[
      "protocolVersion" := JStr(ProtocolVersion),
      "capabilities" := EmptyObject,
      "clientInfo" := JObj(map["name" := JStr(name), "version" := JStr(version)])]
  }

  /** `initialize`. */
  function Initialize(rt: Runtime, c: Client, post: (string, Json) -> HttpReply): (x: Exchange)
    ensures x.client.nextId == c.nextId + 1
    ensures ReadRequest(x.sent) == Some(Request(c.nextId, "initialize", InitializeParams(ClientName, ClientVersion)))
    ensures x.sent.fields["params"].fields["protocolVersion"] == JStr("2024-11-05")
  {
    MakeRequest(rt, c, "initialize", Some(InitializeParams(ClientName, ClientVersion)), post)
  }

  /** `list_tools`: `tools/list` with empty params. */
  function ListTools(rt: Runtime, c: Client, post: (string, Json) -> HttpReply): (x: Exchange)
    ensures x.client.nextId == c.nextId + 1
    ensures ReadRequest(x.sent) == Some(Request(c.nextId, "tools/list", map[]))
  {
    MakeRequest(rt, c, "tools/list", None, post)
  }

  /** The params of a `tools/call`: the tool name, and the arguments or `{}`. */
  function CallParams(name: string, arguments: Option<map<string, Json>>): map<string, Json> {
    map["name" := JStr(name), "arguments" := JObj(arguments.GetOr(map[]))]
  }

  /** `call_tool`. */
  function CallTool(rt: Runtime, c: Client, name: string, arguments: Option<map<string, Json>>,
                    post: (string, Json) -> HttpReply): (x: Exchange)
    ensures x.client.nextId == c.nextId + 1
    ensures ReadRequest(x.sent) == Some(Request(c.nextId, "tools/call", CallParams(name, arguments)))
    ensures arguments.None? ==> x.sent.fields["params"].fields["arguments"] == EmptyObject
  {
    MakeRequest(rt, c, "tools/call", Some(CallParams(name, arguments)), post)
  }

  /** One scheduled request: a method name and its optional params. */
  datatype Call = Call(methodName: string, params: Option<map<string, Json>>)

  /** Issuing `calls` one after another on the same client, threading the
      counter; every exchange is kept, failed or not. */
  function RunCalls(rt: Runtime, c: Client, calls: seq<Call>, post: (string, Json) -> HttpReply): seq<Exchange>
    decreases |calls|
  {
    if |calls| == 0 then []
    else
      var x := MakeRequest(rt, c, calls[0].methodName, calls[0].params, post);
      [x] + RunCalls(rt, x.client, calls[1..], post)
  }

  /** The i-th request of a run carries id `c.nextId + i` and leaves the
      counter at `c.nextId + i + 1`, whatever the outcomes. */
  lemma {:induction false} RunCallsIds(rt: Runtime, c: Client, calls: seq<Call>, post: (string, Json) -> HttpReply)
    ensures |RunCalls(rt, c, calls, post)| == |calls|
    ensures forall i :: 0 <= i < |calls| ==>
              SentId(RunCalls(rt, c, calls, post)[i].sent) == c.nextId + i
              && RunCalls(rt, c, calls, post)[i].client.nextId == c.nextId + i + 1
              && RunCalls(rt, c, calls, post)[i].client.url == c.url
    decreases |calls|
  {
    if |calls| > 0 {
      var x := MakeRequest(rt, c, calls[0].methodName, calls[0].params, post);
      RunCallsIds(rt, x.client, calls[1..], post);
      var xs := RunCalls(rt, c, calls, post);
      assert xs == [x] + RunCalls(rt, x.client, calls[1..], post);
      forall i | 0 <= i < |calls|
        ensures SentId(xs[i].sent) == c.nextId + i
        ensures xs[i].client.nextId == c.nextId + i + 1
        ensures xs[i].client.url == c.url
      {
        if i > 0 {
          assert xs[i] == RunCalls(rt, x.client, calls[1..], post)[i - 1];
        }
      }
    }
  }

  /** Ids within one client start at 1, strictly increase and are never
      reused, even across failed requests. */
  lemma IdsStrictlyIncrease(rt: Runtime, url: string, calls: seq<Call>, post: (string, Json) -> HttpReply)
    ensures var xs := RunCalls(rt, NewClient(url), calls, post);
            && |xs| == |calls|
            && (|xs| > 0 ==> SentId(xs[0].sent) == 1)
            && forall i, j :: 0 <= i < j < |xs| ==> SentId(xs[i].sent) < SentId(xs[j].sent)
  {
    RunCallsIds(rt, NewClient(url), calls, post);
  }

  /** `get_billy_mcp_client`: a fresh client on the normalised `/mcp`
      endpoint, initialised before it is returned; it fails when
      `initialize` fails. */
  function GetClient(rt: Runtime, baseUrl: string, post: (string, Json) -> HttpReply): (r: Result<Client, string>)
    ensures r.Success? ==> r.value == Client(Endpoints.McpUrl(baseUrl), 2)
    ensures r.Success? <==> Initialize(rt, NewClient(Endpoints.McpUrl(baseUrl)), post).outcome.Success?
  {
    var x := Initialize(rt, NewClient(Endpoints.McpUrl(baseUrl)), post);
    match x.outcome
    case Failure(e) => Failure(e)
    case Success(_) => Success(x.client)
  }
}

=== FILE: json_value.dfy ===
/** JSON documents as trees, and the text-level operations the modelled code
    delegates to its runtime (parsing and serialising), kept uninterpreted. */
module JsonValue {
  import opened Wrappers

  /** A decoded JSON value. Numbers keep the distinction Python's `json`
      module makes between integers and floats; floats are modelled as reals
      (only their equality with integers matters here). Objects are maps:
      apart from serialisation (`json.dumps`, `str()`), which is
      uninterpreted and would depend on member order, the modelled code only
      looks members up by name. */
  datatype Json =
    | JNull
    | JBool(b: bool)
    | JInt(i: int)
    | JFloat(x: real)
    | JStr(s: string)
    | JArr(items: seq<Json>)
    | JObj(fields: map<string, Json>)

  const EmptyObject: Json := JObj(map[])

  /** The runtime services the code calls but whose internals are not
      modelled:
      - `parse`: `json.loads` / `JSON.parse`, `None` where they throw;
      - `dumps`: `json.dumps(x)`;
      - `dumpsIndented`: `json.dumps(x, indent=2)`;
      - `showOther`: Python `str(x)` for a float, a list or a dict (the
        other cases of `str` are modelled exactly, in PyOps.Str). */
  datatype Runtime = Runtime(
    parse: string -> Option<Json>,
    dumps: Json -> string,
    dumpsIndented: Json -> string,
    showOther: Json -> string)

  /** The usual contract between a JSON parser and serialiser: parsing what
      was dumped gives the document back. Only the lemmas that talk about the
      text a rewritten message carries assume it. */
  ghost predicate ParseInvertsDumps(rt: Runtime) {
    forall j :: rt.parse(rt.dumps(j)) == Some(j)
  }
}

=== FILE: py_ops.dfy ===
/** The few Python operations whose dynamic behaviour decides control flow
    in the modelled code, applied to decoded JSON: `in`, `.get`, `x[key]`,
    `x[0]`, truthiness, `==` against an integer and `str()`. An operation
    Python refuses (a `TypeError`, `AttributeError`, `KeyError` or
    `IndexError`) yields `Failure` carrying the exception's `str()` text. */
module PyOps {
  import opened Wrappers
  import opened Strings
  import opened JsonValue

  /** `type(x).__name__` for a decoded JSON value. */
  function TypeName(j: Json): string {
    match j
    case JNull => "NoneType"
    case JBool(_) => "bool"
    case JInt(_) => "int"
    case JFloat(_) => "float"
    case JStr(_) => "str"
    case JArr(_) => "list"
    case JObj(_) => "dict"
  }

  /** Python truthiness: `None`, `False`, zero and empty containers are false. */
  predicate Truthy(j: Json) {
    match j
    case JNull => false
    case JBool(b) => b
    case JInt(i) => i != 0
    case JFloat(x) => x != 0.0
    case JStr(s) => |s| > 0
    case JArr(items) => |items| > 0
    case JObj(fields) => |fields| > 0
  }

  /** The `TypeError` text of `in` on a value that is not a container. */
  function NotIterable(c: Json): string {
    "argument of type '" + TypeName(c) + "' is not iterable"
  }

  /** Python `key in c` for a str `key`: key membership for a dict, element
      equality for a list, substring for a str; other types raise. */
  function In(key: string, c: Json): Result<bool, string> {
    match c
    case JObj(fields) => Success(key in fields)
    case JArr(items) => Success(JStr(key) in items)
    case JStr(s) => Success(Contains(s, key))
    case _ => Failure(NotIterable(c))
  }

  /** `d.get(key, default)` on a dict `d`. */
  function DictGet(fields: map<string, Json>, key: string, default: Json): Json {
    if key in fields then fields[key] else default
  }

  /** The message of the `AttributeError` `.get` raises on a non-dict. */
  function NoGet(c: Json): string {
    "'" + TypeName(c) + "' object has no attribute 'get'"
  }

  /** The `AttributeError` text of `.get` on a string:
      "'str' object has no attribute 'get'". */
  const StrHasNoGet := NoGet(JStr(""))

  /** Python `c.get(key, default)`; only a dict has `.get`. */
  function Get(c: Json, key: string, default: Json): Result<Json, string> {
    match c
    case JObj(fields) => Success(DictGet(fields, key, default))
    case _ => Failure(NoGet(c))
  }

  /** Python `c[key]` for a str `key`. */
  function Subscript(c: Json, key: string): Result<Json, string> {
    match c
    case JObj(fields) => if key in fields then Success(fields[key]) else Failure("'" + key + "'")
    case JArr(_) => Failure("list indices must be integers or slices, not str")
    case JStr(_) => Failure("string indices must be integers, not 'str'")
    case _ => Failure("'" + TypeName(c) + "' object is not subscriptable")
  }

  /** Python `c[0]`. A dict is looked up under the integer key 0, which a
      decoded JSON object never has. */
  function First(c: Json): Result<Json, string> {
    match c
    case JArr(items) => if |items| > 0 then Success(items[0]) else Failure("list index out of range")
    case JStr(s) => if |s| > 0 then Success(JStr([s[0]])) else Failure("string index out of range")
    case JObj(_) => Failure("0")
    case _ => Failure("'" + TypeName(c) + "' object is not subscriptable")
  }

  /** Python `j == k` for an integer literal `k`: ints and floats compare by
      value and `True == 1`, `False == 0`. */
  predicate EqInt(j: Json, k: int) {
    match j
    case JInt(i) => i == k
    case JFloat(x) => x == k as real
    case JBool(b) => (if b then 1 else 0) == k
    case _ => false
  }

  /** Python `str(j)` (and f-string interpolation). */
  function Str(rt: Runtime, j: Json): string {
    match j
    case JNull => "None"
    case JBool(b) => if b then "True" else "False"
    case JInt(i) => IntToString(i)
    case JStr(s) => s
    case _ => rt.showOther(j)
  }
}

=== FILE: response_matching.dfy ===
/** The session-establishment and response-correlation checks of the two
    test scripts test_tools_timeout.py and test_session_management.py: a
    session id taken from the header of the long-lived `GET /mcp/sse`
    stream, requests POSTed to `/mcp` with that id in `MCP-Session-Id`, and
    the answer recognised among the stream's `data:` lines by `jsonrpc`,
    `id` and the presence of `result`.

    The listening thread and the polling deadline are not modelled: the
    messages the stream delivered before the deadline are a parameter. */
module ResponseMatching {
  import opened Wrappers
  import opened Strings
  import opened JsonValue
  import opened PyOps
  import JsonRpc

  const McpEndpoint := "http://localhost:3000/mcp"
  const DataPrefix := "data: "

  /** Which answer a script waits for. */
  datatype Probe =
    | AwaitInitialize  // id 1, with `protocolVersion` in its result
    | AwaitToolsList   // id 2, with a result

  /** The id the awaited answer must carry. */
  function ProbeId(p: Probe): int {
    match p
    case AwaitInitialize => 1
    case AwaitToolsList => 2
  }

  /** The reference reading of the match condition on a decoded object:
      `jsonrpc` is the string "2.0", `id` equals the awaited id under
      Python's `==` (so `1.0` and `true` equal 1), a `result` member is
      present, and for `initialize` that result contains `protocolVersion`
      as Python's `in` sees it. */
  predicate IsAwaitedAnswer(p: Probe, fields: map<string, Json>) {
    && "jsonrpc" in fields && fields["jsonrpc"] == JStr("2.0")
    && "id" in fields && EqInt(fields["id"], ProbeId(p))
    && "result" in fields
    && (p.AwaitInitialize? ==> In("protocolVersion", fields["result"]) == Success(true))
  }

  /** The `if` condition of the scripts on `parsed = json.loads(data)`,
      evaluated left to right with short-circuiting; `Failure` where Python
      raises: `.get` on anything but a dict, or, for `initialize`, `in` on a
      result that is a number, boolean or null. */
  function Matches(p: Probe, parsed: Json): (r: Result<bool, string>)
    ensures r == Success(true) <==> parsed.JObj? && IsAwaitedAnswer(p, parsed.fields)
    ensures r.Failure? <==>
              || !parsed.JObj?
              || (&& p.AwaitInitialize?
                  && "jsonrpc" in parsed.fields && parsed.fields["jsonrpc"] == JStr("2.0")
                  && "id" in parsed.fields && EqInt(parsed.fields["id"], 1)
                  && "result" in parsed.fields
                  && In("protocolVersion", parsed.fields["result"]).Failure?)
  {
    match parsed
    case JObj(fields) =>
      // `.get` succeeds on a dict; only the final `in` can still raise
      var version := if "jsonrpc" in fields then fields["jsonrpc"] else JNull;
      var id := if "id" in fields then fields["id"] else JNull;
      if version != JStr("2.0") || !EqInt(id, ProbeId(p)) || "result" !in fields then Success(false)
      else if p.AwaitToolsList? then Success(true)
      else In("protocolVersion", fields["result"])
    case _ => Get(parsed, "jsonrpc", JNull).PropagateFailure()
  }

  /** An error response (no `result` member) is never taken for the answer. */
  lemma ErrorResponseNeverMatches(p: Probe, fields: map<string, Json>)
    requires "result" !in fields
    ensures Matches(p, JObj(fields)) == Success(false)
  {
  }

  /** A response to another request (an id that is not the awaited one) is
      never taken for the answer. */
  lemma OtherIdNeverMatches(p: Probe, fields: map<string, Json>)
    requires "id" !in fields || !EqInt(fields["id"], ProbeId(p))
    ensures Matches(p, JObj(fields)) == Success(false)
  {
  }

  /** Python's `==` lets a boolean `true` id pass for the `initialize`
      answer's id 1. */
  lemma TrueIdPassesForOne(result: map<string, Json>)
    requires "protocolVersion" in result
    ensures Matches(AwaitInitialize,
                    JObj(map["jsonrpc" := JStr("2.0"), "id" := JBool(true), "result" := JObj(result)])) == Success(true)
  {
  }

  /** What one stream message does to the wait: nothing, end it with
      success, or end it with failure (an exception that escapes to the
      bare `except: break`). */
  datatype LineVerdict = Skip | Hit | Abort

  /** One message: not a `data: ` line, or a payload that is not JSON
      (`JSONDecodeError` is caught), is skipped. */
  function Judge(p: Probe, parse: string -> Option<Json>, message: string): (v: LineVerdict)
    ensures !StartsWith(message, DataPrefix) ==> v == Skip
    ensures StartsWith(message, DataPrefix) && parse(message[6..]).None? ==> v == Skip
    ensures v == Hit <==>
              StartsWith(message, DataPrefix) && parse(message[6..]).Some? && Matches(p, parse(message[6..]).value) == Success(true)
  {
    if !StartsWith(message, DataPrefix) then Skip
    else
      match parse(message[|DataPrefix|..])
      case None => Skip
      case Some(parsed) =>
        match Matches(p, parsed)
        case Failure(_) => Abort
        case Success(hit) => if hit then Hit else Skip
  }

  /** How the wait ended: the answer at index `k`, an exception at index
      `k`, or the deadline with everything skipped. */
  datatype WaitEnd = Found(k: nat) | Aborted(k: nat) | Exhausted

  /** Index `k` is the first message whose verdict under `judge` is not `Skip`. */
  ghost predicate FirstDecisive<M>(judge: M -> LineVerdict, messages: seq<M>, k: int) {
    && 0 <= k < |messages|
    && judge(messages[k]) != Skip
    && forall m :: 0 <= m < k ==> judge(messages[m]) == Skip
  }

  /** Reading messages in order until one is decisive. */
  function Scan<M>(judge: M -> LineVerdict, messages: seq<M>): (w: WaitEnd)
    ensures w.Found? ==> FirstDecisive(judge, messages, w.k) && judge(messages[w.k]) == Hit
    ensures w.Aborted? ==> FirstDecisive(judge, messages, w.k) && judge(messages[w.k]) == Abort
    ensures w.Exhausted? <==> forall m :: 0 <= m < |messages| ==> judge(messages[m]) == Skip
  {
    if |messages| == 0 then Exhausted
    else
      match judge(messages[0])
      case Hit => Found(0)
      case Abort => Aborted(0)
      case Skip =>
        var w := Scan(judge, messages[1..]);
        assert forall m :: 1 <= m < |messages| ==> messages[m] == messages[1..][m - 1];
        match w
        case Found(k) => Found(k + 1)
        case Aborted(k) => Aborted(k + 1)
        case Exhausted => Exhausted
  }

  /** A decisive message ends the scan there, whatever follows it. */
  lemma {:induction false} ScanStopsAtFirstDecisive<M>(judge: M -> LineVerdict, before: seq<M>, x: M, after: seq<M>)
    requires forall m :: 0 <= m < |before| ==> judge(before[m]) == Skip
    requires judge(x) != Skip
    ensures Scan(judge, before + [x] + after) == if judge(x) == Hit then Found(|before|) else Aborted(|before|)
    decreases |before|
  {
    var all := before + [x] + after;
    if |before| == 0 {
      assert all[0] == x;
    } else {
      assert all[0] == before[0];
      assert all[1..] == before[1..] + [x] + after;
      ScanStopsAtFirstDecisive(judge, before[1..], x, after);
    }
  }

  /** A scan that found its answer reads nothing after it. */
  lemma {:induction false} ScanIgnoresLater<M>(judge: M -> LineVerdict, messages: seq<M>, later: seq<M>)
    requires Scan(judge, messages).Found?
    ensures Scan(judge, messages + later) == Scan(judge, messages)
    decreases |messages|
  {
    var all := messages + later;
    assert all[0] == messages[0];
    if judge(messages[0]) == Skip {
      assert all[1..] == messages[1..] + later;
      ScanIgnoresLater(judge, messages[1..], later);
    }
  }

  /** The polling loop over the messages delivered before the deadline: it
      stops at the first message that is the answer or that raises. */
  function Wait(p: Probe, parse: string -> Option<Json>, messages: seq<string>): (w: WaitEnd)
    ensures w.Found? ==> w.k < |messages| && Judge(p, parse, messages[w.k]) == Hit
    ensures w.Found? || w.Aborted? ==> w.k < |messages| && forall m :: 0 <= m < w.k ==> Judge(p, parse, messages[m]) == Skip
    ensures w.Aborted? ==> w.k < |messages| && Judge(p, parse, messages[w.k]) == Abort
    ensures w.Exhausted? <==> forall m :: 0 <= m < |messages| ==> Judge(p, parse, messages[m]) == Skip
  {
    Scan(m => Judge(p, parse, m), messages)
  }

  /** The answer is recognised only if no earlier message raised: a stray
      non-object payload (such as a bare number) before the answer ends the
      wait in failure. */
  lemma EarlierAbortHidesAnswer(p: Probe, parse: string -> Option<Json>, before: seq<string>,
                                bad: string, after: seq<string>)
    requires forall m :: 0 <= m < |before| ==> Judge(p, parse, before[m]) == Skip
    requires Judge(p, parse, bad) == Abort
    ensures Wait(p, parse, before + [bad] + after) == Aborted(|before|)
  {
    ScanStopsAtFirstDecisive(m => Judge(p, parse, m), before, bad, after);
  }

  /** Once the answer has been seen, messages delivered after it are never
      looked at. */
  lemma WaitIgnoresLaterMessages(p: Probe, parse: string -> Option<Json>, messages: seq<string>,
                                 later: seq<string>)
    requires Wait(p, parse, messages).Found?
    ensures Wait(p, parse, messages + later) == Wait(p, parse, messages)
  {
    ScanIgnoresLater(m => Judge(p, parse, m), messages, later);
  }

  // ---------------------------------------------------------------------
  // The scripts' request sequence
  // ---------------------------------------------------------------------

  /** A POST of the scripts: always to `/mcp`, with the session id header. */
  datatype TestPost = TestPost(url: string, sessionId: string, body: Json)

  /** What `requests.post` produced: a status and body, or an exception. */
  datatype PostReply = Posted(status: int, body: string) | PostRaised(reason: string)

  /** How a script ended. */
  datatype Outcome =
    | NoSession                // no usable session id from the stream
    | RequestFailed(reason: string) // the POST (or reading its reply) raised
    | Waited(end: WaitEnd)     // the wait for the answer ran

  /** A run: the POSTs made in order and how it ended. */
  datatype Run = Run(sent: seq<TestPost>, outcome: Outcome)

  /** The script's result: true only when the answer was seen. */
  predicate Passed(r: Run) {
    r.outcome.Waited? && r.outcome.end.Found?
  }

  /** Python truthiness of the session id read from the stream's header. */
  predicate UsableSession(sessionId: Option<string>) {
    sessionId.Some? && sessionId.value != ""
  }

  /** The `initialize` request both scripts send (client "test" 1.0.0). */
  function InitRequest(): Json {
    JsonRpc.Envelope(1, "initialize", Some(JsonRpc.InitializeParams("test", "1.0.0")))
  }

  /** The `tools/list` request of the timeout script. */
  function ToolsListRequest(): Json {
    JsonRpc.Envelope(2, "tools/list", Some(map[]))
  }

  /** test_tools_timeout: `initialize`, then `tools/list`, each POSTed with
      the session id (their replies are only printed), then the wait for the
      id-2 answer on the stream. */
  function ToolsTimeoutRun(sessionId: Option<string>, post: TestPost -> PostReply,
                           parse: string -> Option<Json>, messages: seq<string>): (r: Run)
    ensures !UsableSession(sessionId) ==> r == Run([], NoSession)
    ensures UsableSession(sessionId) ==>
              && 1 <= |r.sent| <= 2
              && (forall k :: 0 <= k < |r.sent| ==> r.sent[k].url == McpEndpoint && r.sent[k].sessionId == sessionId.value)
              && JsonRpc.ReadRequest(r.sent[0].body) ==
                 Some(JsonRpc.Request(1, "initialize", JsonRpc.InitializeParams("test", "1.0.0")))
              && (|r.sent| == 2 ==> JsonRpc.ReadRequest(r.sent[1].body) == Some(JsonRpc.Request(2, "tools/list", map[])))
    ensures Passed(r) <==>
              UsableSession(sessionId)
              && !post(TestPost(McpEndpoint, sessionId.value, InitRequest())).PostRaised?
              && !post(TestPost(McpEndpoint, sessionId.value, ToolsListRequest())).PostRaised?
              && Wait(AwaitToolsList, parse, messages).Found?
  {
    if !UsableSession(sessionId) then Run([], NoSession)
    else
      var init := TestPost(McpEndpoint, sessionId.value, InitRequest());
      match post(init)
      case PostRaised(reason) => Run([init], RequestFailed(reason))
      case Posted(_, _) =>
        var tools := TestPost(McpEndpoint, sessionId.value, ToolsListRequest());
        match post(tools)
        case PostRaised(reason) => Run([init, tools], RequestFailed(reason))
        case Posted(_, _) => Run([init, tools], Waited(Wait(AwaitToolsList, parse, messages)))
  }

  /** The acknowledgement check of test_session_management on the POST's
      body: `post_data.get("result", {}).get("status")` is
      "message_sent_via_sse" or "sent". A body that is not JSON, or a
      `result` or body that is not a dict, raises. */
  function Acknowledged(parse: string -> Option<Json>, body: string): (r: Result<bool, string>)
    ensures parse(body).None? ==> r.Failure?
    ensures r.Success? <==>
              && parse(body).Some? && parse(body).value.JObj?
              && var fields := parse(body).value.fields;
              && ("result" in fields ==> fields["result"].JObj?)
    ensures r == Success(true) <==>
              && parse(body).Some? && parse(body).value.JObj?
              && var fields := parse(body).value.fields;
              && "result" in fields && fields["result"].JObj?
              && "status" in fields["result"].fields
              && fields["result"].fields["status"] in {JStr("message_sent_via_sse"), JStr("sent")}
  {
    match parse(body)
    case None => Failure("Expecting value: line 1 column 1 (char 0)")
    case Some(postData) =>
      var result :- Get(postData, "result", EmptyObject);
      var status :- Get(result, "status", JNull);
      Success(status == JStr("message_sent_via_sse") || status == JStr("sent"))
  }

  /** test_session_management: `initialize` POSTed with the session id; its
      reply must decode and be checkable, though an unexpected status is
      only a warning; then the wait for the id-1 answer on the stream. */
  function SessionManagementRun(sessionId: Option<string>, post: TestPost -> PostReply,
                                parse: string -> Option<Json>, messages: seq<string>): (r: Run)
    ensures !UsableSession(sessionId) ==> r == Run([], NoSession)
    ensures UsableSession(sessionId) ==> r.sent == [TestPost(McpEndpoint, sessionId.value, InitRequest())]
    ensures UsableSession(sessionId) ==>
              var reply := post(TestPost(McpEndpoint, sessionId.value, InitRequest()));
              (reply.Posted? && Acknowledged(parse, reply.body).Success?) <==> r.outcome.Waited?
    ensures r.outcome.Waited? ==> r.outcome.end == Wait(AwaitInitialize, parse, messages)
  {
    if !UsableSession(sessionId) then Run([], NoSession)
    else
      var init := TestPost(McpEndpoint, sessionId.value, InitRequest());
      match post(init)
      case PostRaised(reason) => Run([init], RequestFailed(reason))
      case Posted(_, body) =>
        match Acknowledged(parse, body)
        case Failure(reason) => Run([init], RequestFailed(reason))
        case Success(_) => Run([init], Waited(Wait(AwaitInitialize, parse, messages)))
  }

  /** A reply body that decodes to a dict whose `result`, if present, is a
      dict too, so the acknowledgement check can read its status. */
  predicate DictReply(parse: string -> Option<Json>, body: string) {
    && parse(body).Some? && parse(body).value.JObj?
    && ("result" in parse(body).value.fields ==> parse(body).value.fields["result"].JObj?)
  }

  /** The acknowledgement decides nothing: two servers whose replies both
      decode to dicts (with dict results, if any) give the same outcome,
      whatever status they report. */
  lemma AcknowledgementIsOnlyAWarning(sessionId: Option<string>, post1: TestPost -> PostReply,
                                      post2: TestPost -> PostReply, parse: string -> Option<Json>,
                                      messages: seq<string>)
    requires UsableSession(sessionId)
    requires var init := TestPost(McpEndpoint, sessionId.value, InitRequest());
             post1(init).Posted? && DictReply(parse, post1(init).body)
             && post2(init).Posted? && DictReply(parse, post2(init).body)
    ensures SessionManagementRun(sessionId, post1, parse, messages) == SessionManagementRun(sessionId, post2, parse, messages)
  {
  }
}

=== FILE: response_patch.dfy ===
/** The message handling of `patched_sse_client` in
    archive/old_implementations/agent_with_patches.py: every message of the
    event stream is passed on, one for one and in order. A framed message
    whose payload is a tool result with JSON text in `content[0].text` gets
    that text replaced by its `format_billy_response` summary; an unframed
    message whose data is JSON is re-framed as event "message" with the same
    data; everything else passes through unchanged. */
module ResponsePatch {
  import opened Wrappers
  import opened JsonValue
  import InvoiceFormat

  /** A message of the underlying stream: one with both `event` and `data`
      attributes, one with only `data`, or anything else. */
  datatype SseItem =
    | Framed(event: string, data: string)
    | Unframed(data: string)
    | Opaque(tag: string)

  /** The shape the rewrite needs: a dict whose `result` is a dict whose
      `content` is a non-empty list whose first item is a dict with a string
      `text`. Every other shape makes one of the guarded steps raise or test
      false, and the message is left alone. */
  predicate HasFirstText(doc: Json) {
    && doc.JObj? && "result" in doc.fields
    && var result := doc.fields["result"];
    && result.JObj? && "content" in result.fields
    && var content := result.fields["content"];
    && content.JArr? && |content.items| > 0
    && var item := content.items[0];
    && item.JObj? && "text" in item.fields && item.fields["text"].JStr?
  }

  /** `parsed['result']['content'][0]['text']`, when the shape is there. */
  function FirstText(doc: Json): (t: Option<string>)
    ensures t.Some? <==> HasFirstText(doc)
  {
    if HasFirstText(doc) then Some(doc.fields["result"].fields["content"].items[0].fields["text"].s) else None
  }

  /** The document with `result.content[0].text` set to `text`. */
  function ReplaceFirstText(doc: Json, text: string): (r: Json)
    requires HasFirstText(doc)
    ensures FirstText(r) == Some(text)
    ensures r.fields.Keys == doc.fields.Keys
    ensures forall k :: k in doc.fields && k != "result" ==> r.fields[k] == doc.fields[k]
    ensures var res, res' := doc.fields["result"], r.fields["result"];
            && res'.fields.Keys == res.fields.Keys
            && forall k :: k in res.fields && k != "content" ==> res'.fields[k] == res.fields[k]
    ensures var items, items' := doc.fields["result"].fields["content"].items, r.fields["result"].fields["content"].items;
            && |items'| == |items|
            && (forall i :: 1 <= i < |items| ==> items'[i] == items[i])
            && items'[0].fields.Keys == items[0].fields.Keys
            && forall k :: k in items[0].fields && k != "text" ==> items'[0].fields[k] == items[0].fields[k]
  {
    var result := doc.fields["result"];
    var items := result.fields["content"].items;
    var item := items[0];
    var item' := JObj(item.fields["text" := JStr(text)]);
    var items' := items[0 := item'];
    var result' := JObj(result.fields["content" := JArr(items')]);
    JObj(doc.fields["result" := result'])
  }

  /** Putting the old text back restores the document: the rewrite touches
      nothing but that one text. */
  lemma ReplaceRestores(doc: Json, text: string)
    requires HasFirstText(doc)
    ensures ReplaceFirstText(ReplaceFirstText(doc, text), FirstText(doc).value) == doc
  {
    var r := ReplaceFirstText(ReplaceFirstText(doc, text), FirstText(doc).value);
    var result := doc.fields["result"];
    var items := result.fields["content"].items;
    var items2 := r.fields["result"].fields["content"].items;
    assert items2[0].fields == items[0].fields;
    assert items2 == items;
    assert r.fields["result"].fields == result.fields;
    assert r.fields == doc.fields;
  }

  /** The rewritten payload of a framed message's data, if the rewrite
      applies: the data is non-empty and parses, has the first-text shape,
      and that text itself parses. */
  function FormattedPayload(rt: Runtime, data: string): (p: Option<Json>)
    ensures p.Some? <==>
              && data != ""
              && rt.parse(data).Some?
              && FirstText(rt.parse(data).value).Some?
              && rt.parse(FirstText(rt.parse(data).value).value).Some?
    ensures p.Some? ==>
              var parsed := rt.parse(data).value;
              var inner := rt.parse(FirstText(parsed).value).value;
              p.value == ReplaceFirstText(parsed, InvoiceFormat.FormatBillyResponse(rt, inner))
  {
    if data == "" then None
    else
      match rt.parse(data)
      case None => None
      case Some(parsed) =>
        match FirstText(parsed)
        case None => None
        case Some(text) =>
          match rt.parse(text)
          case None => None
          case Some(inner) => Some(ReplaceFirstText(parsed, InvoiceFormat.FormatBillyResponse(rt, inner)))
  }

  /** The handling of one message. */
  function PatchMessage(rt: Runtime, m: SseItem): (out: SseItem)
    ensures m.Framed? ==> out.Framed? && out.event == m.event
    ensures m.Framed? && FormattedPayload(rt, m.data).None? ==> out == m
    ensures m.Framed? && FormattedPayload(rt, m.data).Some? ==> out.data == rt.dumps(FormattedPayload(rt, m.data).value)
    ensures m.Unframed? && m.data != "" && rt.parse(m.data).Some? ==> out == Framed("message", m.data)
    ensures m.Unframed? && (m.data == "" || rt.parse(m.data).None?) ==> out == m
    ensures m.Opaque? ==> out == m
  {
    match m
    case Framed(event, data) =>
      (match FormattedPayload(rt, data)
       case Some(doc) => Framed(event, rt.dumps(doc))
       case None => m)
    case Unframed(data) =>
      if data != "" && rt.parse(data).Some? then Framed("message", data) else m
    case Opaque(_) => m
  }

  /** With a serialiser the parser inverts, a rewritten message decodes to
      the original payload with only `content[0].text` changed, to the
      summary of the JSON that text held. */
  lemma RewriteChangesOnlyFirstText(rt: Runtime, event: string, data: string)
    requires ParseInvertsDumps(rt)
    requires FormattedPayload(rt, data).Some?
    ensures var parsed := rt.parse(data).value;
            var out := PatchMessage(rt, Framed(event, data));
            && rt.parse(out.data).Some?
            && FirstText(rt.parse(out.data).value)
               == Some(InvoiceFormat.FormatBillyResponse(rt, rt.parse(FirstText(parsed).value).value))
            && ReplaceFirstText(rt.parse(out.data).value, FirstText(parsed).value) == parsed
  {
    var parsed := rt.parse(data).value;
    var doc := FormattedPayload(rt, data).value;
    assert rt.parse(rt.dumps(doc)) == Some(doc);
    ReplaceRestores(parsed, InvoiceFormat.FormatBillyResponse(rt, rt.parse(FirstText(parsed).value).value));
  }

  /** A re-framed bare JSON line keeps its data byte for byte: it is never
      summarised, even when it holds a tool result the framed path would
      rewrite. */
  lemma ReframedDataIsNotFormatted(rt: Runtime, data: string)
    requires FormattedPayload(rt, data).Some?
    ensures PatchMessage(rt, Unframed(data)) == Framed("message", data)
  {
  }

  /** The patched stream: one output message per input message, in order. */
  method PatchStream(rt: Runtime, messages: seq<SseItem>) returns (out: seq<SseItem>)
    ensures |out| == |messages|
    ensures forall i :: 0 <= i < |messages| ==> out[i] == PatchMessage(rt, messages[i])
  {
    out := [];
    var i := 0;
    while i < |messages|
      invariant 0 <= i <= |messages|
      invariant |out| == i
      invariant forall k :: 0 <= k < i ==> out[k] == PatchMessage(rt, messages[k])
    {
      out := out + [PatchMessage(rt, messages[i])];
      i := i + 1;
    }
  }

  /** Messages the patch leaves alone pass through the stream unchanged. */
  lemma UntouchedMessagesPassThrough(rt: Runtime, m: SseItem)
    requires m.Opaque? || (m.Framed? && (m.data == "" || rt.parse(m.data).None?))
    ensures PatchMessage(rt, m) == m
  {
  }
}

=== FILE: sse_lines.dfy ===
/** Decoding of server-sent-event text line by line, loosely following
    "Interpreting an event stream" (section 9.2.6 of the WHATWG HTML Living
    Standard) but with the code's own deviations: a data line must start with
    exactly "data: " (one space), a payload is one line (multi-line data is
    never joined), and `id:` and `retry:` fields have no meaning.

    Two decoders are modelled: `parseSSEResponse` of the JavaScript client
    (the payload of the first data line that parses) and the per-line
    classifier of the Python diagnosis script. */
module SseLines {
  import opened Wrappers
  import opened Strings
  import opened JsonValue
  import opened PyOps

  const DataPrefix := "data: "
  const EventPrefix := "event: "
  const CommentPrefix := ":"
  const NoJsonFound := "No valid JSON found in SSE response"

  /** The payload `line[6:]` of a line starting with exactly "data: ". */
  function DataPayload(line: string): (p: Option<string>)
    ensures p.Some? <==> StartsWith(line, DataPrefix)
    ensures p.Some? ==> line == DataPrefix + p.value
  {
    if StartsWith(line, DataPrefix) then
      assert line == line[..|DataPrefix|] + line[|DataPrefix|..];
      Some(line[|DataPrefix|..])
    else None
  }

  /** A line the JavaScript parser accepts: a data line whose payload parses. */
  predicate ParsesAsData(parse: string -> Option<Json>, line: string) {
    DataPayload(line).Some? && parse(DataPayload(line).value).Some?
  }

  /** Line `k` is the first line the JavaScript parser accepts. */
  ghost predicate IsFirstAccepted(parse: string -> Option<Json>, lines: seq<string>, k: int) {
    && 0 <= k < |lines|
    && ParsesAsData(parse, lines[k])
    && forall m :: 0 <= m < k ==> !ParsesAsData(parse, lines[m])
  }

  lemma FirstAcceptedUnique(parse: string -> Option<Json>, lines: seq<string>, a: int, b: int)
    requires IsFirstAccepted(parse, lines, a) && IsFirstAccepted(parse, lines, b)
    ensures a == b
  {
  }

  /** The index the `for` loop of `parseSSEResponse` returns from, if any. */
  function FirstAccepted(parse: string -> Option<Json>, lines: seq<string>): (r: Option<nat>)
    ensures r.Some? ==> IsFirstAccepted(parse, lines, r.value)
    ensures r.None? <==> forall k :: 0 <= k < |lines| ==> !ParsesAsData(parse, lines[k])
  {
    if |lines| == 0 then None
    else if ParsesAsData(parse, lines[0]) then Some(0)
    else
      match FirstAccepted(parse, lines[1..])
      case Some(k) =>
        assert forall m :: 1 <= m < k + 1 ==> lines[m] == lines[1..][m - 1];
        Some(k + 1)
      case None =>
        assert forall m :: 1 <= m < |lines| ==> lines[m] == lines[1..][m - 1];
        None
  }

  /** `parseSSEResponse` over the lines of a response: the parsed payload of
      the first accepted line; lines without the exact prefix and data lines
      that fail to parse are skipped; no accepted line is an error. */
  function ParseSseLines(parse: string -> Option<Json>, lines: seq<string>): (r: Result<Json, string>)
    ensures r.Failure? <==> forall k :: 0 <= k < |lines| ==> !ParsesAsData(parse, lines[k])
    ensures r.Failure? ==> r.error == NoJsonFound
    ensures r.Success? ==>
              exists k :: IsFirstAccepted(parse, lines, k) && parse(lines[k][|DataPrefix|..]) == Some(r.value)
  {
    match FirstAccepted(parse, lines)
    case None => Failure(NoJsonFound)
    case Some(k) => Success(parse(DataPayload(lines[k]).value).value)
  }

  /** `parseSSEResponse(responseText)`: split on '\n', then `ParseSseLines`. */
  function ParseSseResponse(parse: string -> Option<Json>, text: string): Result<Json, string> {
    ParseSseLines(parse, Split(text, '\n'))
  }

  /** A line the parser does not accept (no exact "data: " prefix, or a
      payload that does not parse) can be added anywhere without changing
      the outcome: such lines are skipped, never fatal. */
  lemma {:induction false} SkippedLineIsInert(parse: string -> Option<Json>, lines: seq<string>, k: nat, extra: string)
    requires k <= |lines|
    requires !ParsesAsData(parse, extra)
    ensures ParseSseLines(parse, lines[..k] + [extra] + lines[k..]) == ParseSseLines(parse, lines)
  {
    var lines' := lines[..k] + [extra] + lines[k..];
    assert forall m :: 0 <= m < k ==> lines'[m] == lines[m];
    assert lines'[k] == extra;
    assert forall m :: k < m < |lines'| ==> lines'[m] == lines[m - 1];
    match FirstAccepted(parse, lines)
    case None =>
      assert forall m :: 0 <= m < |lines'| ==> !ParsesAsData(parse, lines'[m]);
    case Some(a) =>
      var a' := if a < k then a else a + 1;
      assert lines'[a'] == lines[a];
      assert IsFirstAccepted(parse, lines', a');
      FirstAcceptedUnique(parse, lines', a', FirstAccepted(parse, lines').value);
  }

  /** "data:" without the space is not a data line, whatever follows. */
  lemma DataWithoutSpaceIgnored(parse: string -> Option<Json>, rest: string)
    requires |rest| == 0 || rest[0] != ' '
    ensures !ParsesAsData(parse, "data:" + rest)
  {
    var line := "data:" + rest;
    assert |rest| > 0 ==> line[5] == rest[0];
  }

  /** An example of the first-accepted rule: after an event line and a
      broken data line, the next payload that parses is the answer and the
      line after it is never used. */
  lemma FirstParsedPayloadWins(parse: string -> Option<Json>, bad: string, good: string, later: string, j: Json)
    requires parse(bad).None? && parse(good) == Some(j)
    ensures ParseSseLines(parse, ["event: message", DataPrefix + bad, DataPrefix + good, DataPrefix + later]) == Success(j)
  {
    var lines := ["event: message", DataPrefix + bad, DataPrefix + good, DataPrefix + later];
    assert DataPayload(lines[1]) == Some(bad);
    assert DataPayload(lines[2]) == Some(good);
    assert !StartsWith(lines[0], DataPrefix) by {
      assert lines[0][..|DataPrefix|] != DataPrefix by { assert lines[0][0] == 'e'; }
    }
    assert IsFirstAccepted(parse, lines, 2);
    FirstAcceptedUnique(parse, lines, 2, FirstAccepted(parse, lines).value);
  }

  // ---------------------------------------------------------------------
  // The line classifier of the diagnosis script
  // ---------------------------------------------------------------------

  /** The JSON-RPC verdict on a data payload. */
  datatype DataCheck = NotJson | JsonRpcMarked | JsonRpcMissing

  /** What one stripped, non-blank line is reported as. */
  datatype LineReport =
    | DataLine(payload: string, check: DataCheck)
    | EventLine(eventType: string)
    | CommentLine(text: string)
    | OtherLine(text: string)

  /** The JSON-RPC check on a payload: only the presence of "jsonrpc" (as
      Python's `in` sees it) is required, its value is never inspected. A
      payload that is a number, boolean or null makes `in` raise. */
  function CheckPayload(parse: string -> Option<Json>, payload: string): (r: Result<DataCheck, string>)
    ensures parse(payload).None? ==> r == Success(NotJson)
    ensures parse(payload).Some? && parse(payload).value.JObj? ==>
              r == Success(if "jsonrpc" in parse(payload).value.fields then JsonRpcMarked else JsonRpcMissing)
    ensures parse(payload).Some? && parse(payload).value.JArr? ==>
              r == Success(if JStr("jsonrpc") in parse(payload).value.items then JsonRpcMarked else JsonRpcMissing)
    ensures parse(payload).Some? && parse(payload).value.JStr? ==>
              r == Success(if Contains(parse(payload).value.s, "jsonrpc") then JsonRpcMarked else JsonRpcMissing)
    ensures r.Failure? <==>
              parse(payload).Some? && !(parse(payload).value.JObj? || parse(payload).value.JArr? || parse(payload).value.JStr?)
  {
    match parse(payload)
    case None => Success(NotJson)
    case Some(parsed) =>
      var present :- In("jsonrpc", parsed);
      Success(if present then JsonRpcMarked else JsonRpcMissing)
  }

  /** Classification of one line, by the first prefix that fits: "data: ",
      then "event: ", then ":", else other. It fails only when the JSON-RPC
      check raises. */
  function ClassifyLine(parse: string -> Option<Json>, line: string): (r: Result<LineReport, string>)
    ensures StartsWith(line, DataPrefix) && CheckPayload(parse, line[6..]).Success? ==>
              r == Success(DataLine(line[6..], CheckPayload(parse, line[6..]).value))
    ensures r.Failure? <==> StartsWith(line, DataPrefix) && CheckPayload(parse, line[6..]).Failure?
    ensures !StartsWith(line, DataPrefix) && StartsWith(line, EventPrefix) ==> r == Success(EventLine(line[7..]))
    ensures !StartsWith(line, DataPrefix) && !StartsWith(line, EventPrefix) && StartsWith(line, CommentPrefix) ==>
              r == Success(CommentLine(line))
    ensures !StartsWith(line, DataPrefix) && !StartsWith(line, EventPrefix) && !StartsWith(line, CommentPrefix) ==>
              r == Success(OtherLine(line))
  {
    if StartsWith(line, DataPrefix) then
      var payload := line[|DataPrefix|..];
      var check :- CheckPayload(parse, payload);
      Success(DataLine(payload, check))
    else if StartsWith(line, EventPrefix) then Success(EventLine(line[|EventPrefix|..]))
    else if StartsWith(line, CommentPrefix) then Success(CommentLine(line))
    else Success(OtherLine(line))
  }

  /** What one raw line contributes to the counted lines: its stripped
      form, or nothing when that is blank. */
  function Kept<S(==)>(strip: S -> S, blank: S, rawLine: S): (r: seq<S>)
    ensures |r| <= 1
    ensures r == [] <==> strip(rawLine) == blank
    ensures r != [] ==> r[0] == strip(rawLine)
  {
    if strip(rawLine) == blank then [] else [strip(rawLine)]
  }

  /** The lines the diagnosis counts: each line stripped, blank ones dropped. */
  function Counted<S(==)>(strip: S -> S, blank: S, raw: seq<S>): (r: seq<S>)
    ensures |r| <= |raw|
  {
    if |raw| == 0 then [] else Kept(strip, blank, raw[0]) + Counted(strip, blank, raw[1..])
  }

  /** Reading raw line `i` moves what it keeps from the unread to the read part. */
  lemma CountedStep<S>(strip: S -> S, blank: S, raw: seq<S>, i: nat)
    requires i < |raw|
    ensures Counted(strip, blank, raw[i..]) == Kept(strip, blank, raw[i]) + Counted(strip, blank, raw[i + 1..])
  {
    assert raw[i..][1..] == raw[i + 1..];
  }

  /** Reading raw line `i` with `count` lines counted so far: a blank line
      leaves the unread counted lines as they were, another line is the
      next counted line. */
  lemma ReadStep<S>(strip: S -> S, blank: S, raw: seq<S>, i: nat, all: seq<S>, count: nat)
    requires i < |raw| && count <= |all|
    requires Counted(strip, blank, raw[i..]) == all[count..]
    ensures strip(raw[i]) == blank ==> Counted(strip, blank, raw[i + 1..]) == all[count..]
    ensures strip(raw[i]) != blank ==>
              && count < |all| && all[count] == strip(raw[i])
              && Counted(strip, blank, raw[i + 1..]) == all[count + 1..]
  {
    CountedStep(strip, blank, raw, i);
    if strip(raw[i]) != blank {
      assert all[count..][0] == all[count];
      assert all[count..][1..] == all[count + 1..];
    }
  }

  /** Once every raw line is read, every counted line has been counted. */
  lemma ReadEnd<S>(strip: S -> S, blank: S, raw: seq<S>, i: nat, all: seq<S>, count: nat)
    requires i <= |raw| && count <= |all|
    requires Counted(strip, blank, raw[i..]) == all[count..]
    ensures i == |raw| ==> count == |all|
  {
    if i == |raw| {
      assert raw[i..] == [];
    }
  }

  /** Appending the report of the next counted line keeps every report
      matched with its line. */
  lemma ExtendReports<S, R>(classify: S -> Result<R, string>, all: seq<S>, reports: seq<R>, x: R)
    requires |reports| < |all| && classify(all[|reports|]) == Success(x)
    requires forall k :: 0 <= k < |reports| ==> classify(all[k]) == Success(reports[k])
    ensures forall k :: 0 <= k < |reports| + 1 ==> classify(all[k]) == Success((reports + [x])[k])
  {
  }

  const MaxMessages := 10

  /** The outcome of a diagnosis: the reports in order, and whether it
      ended early because a line's JSON-RPC check raised. */
  datatype Diagnosis = Diagnosis(reports: seq<LineReport>, aborted: bool)

  /** The reading loop of `diagnose_mcp_server` for any line classifier:
      strip each line, skip blank ones, count the rest, classify them, stop
      after 10 counted lines; a classifier failure (an exception) ends the
      reading. */
  method ReadLines<S(==), R>(strip: S -> S, blank: S, classify: S -> Result<R, string>, raw: seq<S>)
    returns (reports: seq<R>, aborted: bool)
    ensures |reports| <= MaxMessages
    ensures |reports| <= |Counted(strip, blank, raw)|
    ensures forall k :: 0 <= k < |reports| ==> classify(Counted(strip, blank, raw)[k]) == Success(reports[k])
    ensures !aborted ==> |reports| == if |Counted(strip, blank, raw)| < MaxMessages then |Counted(strip, blank, raw)| else MaxMessages
    ensures aborted ==>
              && |reports| < MaxMessages
              && |reports| < |Counted(strip, blank, raw)|
              && classify(Counted(strip, blank, raw)[|reports|]).Failure?
  {
    reports := [];
    aborted := false;
    var count := 0;
    var i := 0;
    ghost var all := Counted(strip, blank, raw);
    assert raw[0..] == raw;
    while i < |raw| && count < MaxMessages
      invariant 0 <= i <= |raw|
      invariant count <= |all| && count <= MaxMessages
      invariant Counted(strip, blank, raw[i..]) == all[count..]
      invariant |reports| == count && !aborted
      invariant forall k :: 0 <= k < |reports| ==> classify(all[k]) == Success(reports[k])
    {
      ReadStep(strip, blank, raw, i, all, count);
      var line := strip(raw[i]);
      if line != blank {
        var r := classify(line);
        if r.Failure? {
          aborted := true;
          break;
        }
        ExtendReports(classify, all, reports, r.value);
        reports := reports + [r.value];
        count := count + 1;
      }
      i := i + 1;
    }
    ReadEnd(strip, blank, raw, i, all, count);
  }

  /** `diagnose_mcp_server`'s reading of the event stream. */
  method Diagnose(parse: string -> Option<Json>, raw: seq<string>) returns (d: Diagnosis)
    ensures |d.reports| <= MaxMessages
    ensures |d.reports| <= |Counted(Strip, "", raw)|
    ensures forall k :: 0 <= k < |d.reports| ==> ClassifyLine(parse, Counted(Strip, "", raw)[k]) == Success(d.reports[k])
    ensures !d.aborted ==> |d.reports| == if |Counted(Strip, "", raw)| < MaxMessages then |Counted(Strip, "", raw)| else MaxMessages
    ensures d.aborted ==>
              && |d.reports| < MaxMessages
              && |d.reports| < |Counted(Strip, "", raw)|
              && ClassifyLine(parse, Counted(Strip, "", raw)[|d.reports|]).Failure?
  {
    var reports, aborted := ReadLines(Strip, "", line => ClassifyLine(parse, line), raw);
    d := Diagnosis(reports, aborted);
  }
}

=== FILE: strings.dfy ===
/** The string operations the modelled code borrows from Python and
    JavaScript: prefix/suffix tests, `split('\n')`, `str.strip()`, `in` on
    strings and decimal rendering of integers. Characters are Unicode code
    points, as in Python 3 strings. */
module Strings {

  /** Python `s.startswith(p)` and JavaScript `s.startsWith(p)`. */
  predicate StartsWith(s: string, p: string) {
    |p| <= |s| && s[..|p|] == p
  }

  /** Python `s.endswith(p)`. */
  predicate EndsWith(s: string, p: string) {
    |p| <= |s| && s[|s| - |p|..] == p
  }

  /** Python `sub in s` for two strings. */
  predicate Contains(s: string, sub: string) {
    StartsWith(s, sub) || (|s| > 0 && Contains(s[1..], sub))
  }

  lemma StartsWithConcat(p: string, s: string)
    ensures StartsWith(p + s, p)
  {
    assert (p + s)[..|p|] == p;
  }

  lemma EndsWithConcat(s: string, p: string)
    ensures EndsWith(s + p, p)
  {
    assert (s + p)[|s + p| - |p|..] == p;
  }

  /** A prefix stays a prefix when text is appended. */
  lemma StartsWithAppend(s: string, p: string, b: string)
    requires StartsWith(s, p)
    ensures StartsWith(s + b, p)
  {
    assert (s + b)[..|p|] == s[..|p|];
  }

  /** A prefix extended on the left: if `s` starts with `p`, then `a + s`
      starts with `a + p`. */
  lemma StartsWithPrepend(a: string, s: string, p: string)
    requires StartsWith(s, p)
    ensures StartsWith(a + s, a + p)
  {
    assert (a + s)[..|a + p|] == a + s[..|p|];
  }

  /** A prefix of a prefix is a prefix. */
  lemma StartsWithTrans(s: string, p: string, q: string)
    requires StartsWith(s, p) && StartsWith(p, q)
    ensures StartsWith(s, q)
  {
    assert s[..|p|][..|q|] == s[..|q|];
  }

  /** A suffix of a suffix, extended on the left: if `s` ends with `a`, then
      `s + b` ends with `a + b`. */
  lemma EndsWithExtend(s: string, a: string, b: string)
    requires EndsWith(s, a)
    ensures EndsWith(s + b, a + b)
  {
    var t := s + b;
    assert t[|t| - |a + b|..] == s[|s| - |a|..] + b;
  }

  // ---------------------------------------------------------------------
  // JavaScript `text.split('\n')`
  // ---------------------------------------------------------------------

  /** JavaScript `Array.prototype.join` with a one-character separator. */
  function Join(parts: seq<string>, sep: char): string
  {
    if |parts| == 0 then ""
    else if |parts| == 1 then parts[0]
    else parts[0] + [sep] + Join(parts[1..], sep)
  }

  /** The text built by appending `parts` one after the other to an empty
      string, as a loop of `text += part` does. */
  function Concat(parts: seq<string>): string
  {
    if |parts| == 0 then "" else Concat(parts[..|parts| - 1]) + parts[|parts| - 1]
  }

  /** The first part comes first: appending in a loop is the same as
      putting the first part in front of the rest. */
  lemma {:induction false} ConcatFront(a: string, rest: seq<string>)
    ensures Concat([a] + rest) == a + Concat(rest)
    decreases |rest|
  {
    if |rest| > 0 {
      var all := [a] + rest;
      assert all[..|all| - 1] == [a] + rest[..|rest| - 1];
      ConcatFront(a, rest[..|rest| - 1]);
    } else {
      assert [a] + rest == [a];
      assert [a][..0] == [];
    }
  }

  /** JavaScript `s.split(sep)` for a one-character separator: the pieces
      between separators, with an empty piece before a leading and after a
      trailing separator, and `[""]` for the empty string. */
  function Split(s: string, sep: char): (parts: seq<string>)
    ensures |parts| >= 1
    ensures forall k :: 0 <= k < |parts| ==> sep !in parts[k]
    ensures Join(parts, sep) == s
  {
    if |s| == 0 then [""]
    else
      var rest := Split(s[1..], sep);
      if s[0] == sep then
        assert ([""] + rest)[1..] == rest;
        [""] + rest
      else
        var parts := [[s[0]] + rest[0]] + rest[1..];
        assert parts[1..] == rest[1..];
        assert s == [s[0]] + s[1..];
        parts
  }

  lemma {:induction false} SplitSingle(a: string, sep: char)
    requires sep !in a
    ensures Split(a, sep) == [a]
    decreases |a|
  {
    if |a| > 0 {
      SplitSingle(a[1..], sep);
      assert [a[0]] + a[1..] == a;
    }
  }

  lemma {:induction false} SplitAfterFirst(a: string, b: string, sep: char)
    requires sep !in a
    ensures Split(a + [sep] + b, sep) == [a] + Split(b, sep)
    decreases |a|
  {
    var s := a + [sep] + b;
    if |a| == 0 {
      assert s[0] == sep && s[1..] == b;
    } else {
      assert s[0] == a[0] && s[1..] == a[1..] + [sep] + b;
      SplitAfterFirst(a[1..], b, sep);
      assert [a[0]] + a[1..] == a;
    }
  }

  /** Splitting undoes joining when no piece contains the separator, so the
      lines seen by a line-oriented parser are exactly the lines that were
      joined into the text. */
  lemma {:induction false} SplitJoin(parts: seq<string>, sep: char)
    requires |parts| >= 1
    requires forall k :: 0 <= k < |parts| ==> sep !in parts[k]
    ensures Split(Join(parts, sep), sep) == parts
    decreases |parts|
  {
    if |parts| == 1 {
      SplitSingle(parts[0], sep);
    } else {
      SplitJoin(parts[1..], sep);
      SplitAfterFirst(parts[0], Join(parts[1..], sep), sep);
      assert [parts[0]] + parts[1..] == parts;
    }
  }

  // ---------------------------------------------------------------------
  // Python `str.strip()`
  // ---------------------------------------------------------------------

  /** Python `str.isspace()` for one character. */
  predicate IsSpace(c: char) {
    || c == ' '
    || ('\t' <= c <= '\r')
    || ('\U{1C}' <= c <= '\U{1F}')
    || c == '\U{85}' || c == '\U{A0}' || c == '\U{1680}'
    || ('\U{2000}' <= c <= '\U{200A}')
    || c == '\U{2028}' || c == '\U{2029}' || c == '\U{202F}'
    || c == '\U{205F}' || c == '\U{3000}'
  }

  /** Python `s.lstrip()`: the suffix left after dropping leading white space. */
  function TrimStart(s: string): (r: string)
    ensures |r| <= |s| && r == s[|s| - |r|..]
    ensures forall i :: 0 <= i < |s| - |r| ==> IsSpace(s[i])
    ensures |r| > 0 ==> !IsSpace(r[0])
  {
    if |s| > 0 && IsSpace(s[0]) then TrimStart(s[1..]) else s
  }

  /** Python `s.rstrip()`: the prefix left after dropping trailing white space. */
  function TrimEnd(s: string): (r: string)
    ensures |r| <= |s| && r == s[..|r|]
    ensures forall i :: |r| <= i < |s| ==> IsSpace(s[i])
    ensures |r| > 0 ==> !IsSpace(r[|r| - 1])
  {
    if |s| > 0 && IsSpace(s[|s| - 1]) then TrimEnd(s[..|s| - 1]) else s
  }

  lemma TrimEndKeepsNonSpaceStart(t: string)
    requires |t| > 0 ==> !IsSpace(t[0])
    ensures TrimEnd(t) == "" ==> t == ""
  {
  }

  /** Python `s.strip()`. The result is empty exactly when `s` is all white
      space, and otherwise neither begins nor ends with white space. */
  function Strip(s: string): (r: string)
    ensures |r| <= |s|
    ensures |r| > 0 ==> !IsSpace(r[0]) && !IsSpace(r[|r| - 1])
    ensures r == "" <==> forall i :: 0 <= i < |s| ==> IsSpace(s[i])
  {
    var t := TrimStart(s);
    var r := TrimEnd(t);
    TrimEndKeepsNonSpaceStart(t);
    r
  }

  /** A string that does not begin with white space is its own `lstrip()`. */
  lemma TrimStartNoop(t: string)
    requires |t| == 0 || !IsSpace(t[0])
    ensures TrimStart(t) == t
  {
  }

  /** A string that does not end with white space is its own `rstrip()`. */
  lemma TrimEndNoop(t: string)
    requires |t| == 0 || !IsSpace(t[|t| - 1])
    ensures TrimEnd(t) == t
  {
  }

  /** Stripping twice is stripping once. */
  lemma StripIdempotent(s: string)
    ensures Strip(Strip(s)) == Strip(s)
  {
    var r := Strip(s);
    TrimStartNoop(r);
    TrimEndNoop(r);
    assert Strip(r) == TrimEnd(TrimStart(r));
  }

  // ---------------------------------------------------------------------
  // Decimal rendering of integers, as Python `str(n)` and JavaScript
  // template literals print them
  // ---------------------------------------------------------------------

  predicate IsDigit(c: char) {
    '0' <= c <= '9'
  }

  function DigitChar(d: nat): (c: char)
    requires d < 10
    ensures IsDigit(c) && c as int - '0' as int == d
  {
    ('0' as int + d) as char
  }

  /** The value of a string of decimal digits (the reference reading of a
      rendered number). */
  function DecimalValue(s: string): nat
    requires forall i :: 0 <= i < |s| ==> IsDigit(s[i])
  {
    if |s| == 0 then 0
    else
      var last := s[|s| - 1];
      assert IsDigit(last);
      DecimalValue(s[..|s| - 1]) * 10 + (last as int - '0' as int)
  }

  /** Decimal digits of `n`, without leading zeros. */
  function NatToString(n: nat): (r: string)
    ensures |r| >= 1
    ensures forall i :: 0 <= i < |r| ==> IsDigit(r[i])
    ensures DecimalValue(r) == n
    ensures r[0] == '0' ==> n == 0
  {
    if n < 10 then [DigitChar(n)]
    else
      var r := NatToString(n / 10) + [DigitChar(n % 10)];
      assert r[..|r| - 1] == NatToString(n / 10);
      r
  }

  /** Rendering is injective: different numbers never print the same. */
  lemma NatToStringInjective(m: nat, n: nat)
    requires NatToString(m) == NatToString(n)
    ensures m == n
  {
  }

  /** Python `str(i)` for an integer. */
  function IntToString(i: int): (r: string)
    ensures |r| >= 1
    ensures r[0] == '-' <==> i < 0
  {
    if i < 0 then "-" + NatToString(-i) else NatToString(i)
  }
}

=== FILE: tool_catalog.dfy ===
/** Tool discovery and dispatch of billy_agent/agent.py: turning a
    `tools/list` result into an ordered catalog of descriptors, choosing the
    zero-argument or pass-through form of each tool function, extracting the
    text of a `tools/call` result and turning every failure of a tool
    function into an error string. */
module ToolCatalog {
  import opened Wrappers
  import opened Strings
  import opened JsonValue
  import opened PyOps
  import opened JsonRpc
  import Endpoints

  /** How a tool function is called: with no arguments at all, or with its
      keyword arguments forwarded verbatim. */
  datatype CallShape = NoArguments | ForwardArguments

  /** One discovered tool. `description` is whatever the server sent (any
      JSON value), or the default. */
  datatype ToolDescriptor = ToolDescriptor(name: string, description: Json, schema: Json, shape: CallShape)

  const UnknownToolName := "unknown"

  /** The reading of an input schema in `create_dynamic_tool_function`:
      absent or empty (falsy) `properties` give the zero-argument form, any
      other value the forwarding form. `required` is read but plays no part.
      A schema that is not an object has no `.get` and raises. */
  function ShapeOf(schema: Json): (r: Result<CallShape, string>)
    ensures r.Failure? <==> !schema.JObj?
    ensures schema.JObj? ==>
              r == Success(if "properties" in schema.fields && Truthy(schema.fields["properties"])
                           then ForwardArguments else NoArguments)
  {
    var properties :- Get(schema, "properties", EmptyObject);
    var required :- Get(schema, "required", JArr([]));
    Success(if Truthy(properties) then ForwardArguments else NoArguments)
  }

  /** The `required` list is never enforced: changing it never changes the
      call form. */
  lemma RequiredNotEnforced(fields: map<string, Json>, required: Json)
    ensures ShapeOf(JObj(fields["required" := required])) == ShapeOf(JObj(fields))
    ensures ShapeOf(JObj(fields - {"required"})) == ShapeOf(JObj(fields))
  {
  }

  /** One iteration of the discovery loop: the name defaults to "unknown",
      the description to "Tool: <name>", the schema to `{}`. Python raises
      when the entry is not an object, when the schema is not an object, and
      when the name is not a string (it becomes the function's `__name__`). */
  function Describe(rt: Runtime, info: Json): (r: Result<ToolDescriptor, string>)
    ensures r.Success? <==>
              && info.JObj?
              && ("name" in info.fields ==> info.fields["name"].JStr?)
              && ("inputSchema" in info.fields ==> info.fields["inputSchema"].JObj?)
    ensures r.Success? ==>
              var f := info.fields;
              var name := if "name" in f then f["name"].s else UnknownToolName;
              && r.value.name == name
              && r.value.description == (if "description" in f then f["description"] else JStr("Tool: " + name))
              && r.value.schema == (if "inputSchema" in f then f["inputSchema"] else EmptyObject)
              && Success(r.value.shape) == ShapeOf(r.value.schema)
  {
    var nameValue :- Get(info, "name", JStr(UnknownToolName));
    var description :- Get(info, "description", JStr("Tool: " + Str(rt, nameValue)));
    var schema :- Get(info, "inputSchema", EmptyObject);
    var shape :- ShapeOf(schema);
    if nameValue.JStr? then Success(ToolDescriptor(nameValue.s, description, schema, shape))
    else Failure("__name__ must be set to a string object")
  }

  /** The discovery loop over a list of entries: one descriptor per entry,
      in the server's order; the first entry Python cannot describe aborts
      the whole loop. */
  function DescribeAll(rt: Runtime, infos: seq<Json>): (r: Result<seq<ToolDescriptor>, string>)
    ensures r.Success? <==> forall k :: 0 <= k < |infos| ==> Describe(rt, infos[k]).Success?
    ensures r.Success? ==>
              && |r.value| == |infos|
              && forall k :: 0 <= k < |infos| ==> Describe(rt, infos[k]) == Success(r.value[k])
  {
    EachInTurn(info => Describe(rt, info), infos)
  }

  /** Applying `f` to the elements in turn: all results, in order, or the
      first failure. */
  function EachInTurn<A, B>(f: A -> Result<B, string>, xs: seq<A>): (r: Result<seq<B>, string>)
    ensures r.Success? <==> forall k :: 0 <= k < |xs| ==> f(xs[k]).Success?
    ensures r.Success? ==> |r.value| == |xs| && forall k :: 0 <= k < |xs| ==> f(xs[k]) == Success(r.value[k])
  {
    if |xs| == 0 then Success([])
    else
      var y :- f(xs[0]);
      var rest :- EachInTurn(f, xs[1..]);
      assert forall k :: 1 <= k < |xs| ==> xs[k] == xs[1..][k - 1];
      Success([y] + rest)
  }

  /** What iterating the `tools` member yields before any entry is
      described: a list gives its elements; an empty string or object gives
      nothing; a non-empty string or object gives strings, and the first of
      them has no `.get`; any other value has no `len()`. */
  function ToolEntries(tools: Json): Result<seq<Json>, string> {
    match tools
    case JArr(items) => Success(items)
    case JStr(s) => if |s| == 0 then Success([]) else Failure(StrHasNoGet)
    case JObj(f) => if |f| == 0 then Success([]) else Failure(StrHasNoGet)
    case _ => Failure("object of type '" + TypeName(tools) + "' has no len()")
  }

  /** The parsing part of `create_dynamic_mcp_tools`: a result without
      `tools` gives an empty catalog; a list of entries gives exactly one
      descriptor per entry, in order. */
  function ParseCatalog(rt: Runtime, listResult: Json): (r: Result<seq<ToolDescriptor>, string>)
    ensures listResult.JObj? && "tools" !in listResult.fields ==> r == Success([])
    ensures listResult.JObj? && "tools" in listResult.fields && listResult.fields["tools"].JArr? ==>
              var infos := listResult.fields["tools"].items;
              && (r.Success? <==> forall k :: 0 <= k < |infos| ==> Describe(rt, infos[k]).Success?)
              && (r.Success? ==>
                    && |r.value| == |infos|
                    && forall k :: 0 <= k < |infos| ==> Describe(rt, infos[k]) == Success(r.value[k]))
  {
    var present :- In("tools", listResult);
    if !present then Success([])
    else
      var tools :- Subscript(listResult, "tools");
      var entries :- ToolEntries(tools);
      DescribeAll(rt, entries)
  }

  /** The tools the agent ends up with: the discovered catalog, or the five
      hard-coded tool functions when discovery raised anywhere. */
  datatype ToolSet = Discovered(tools: seq<ToolDescriptor>) | Fallback

  /** `create_dynamic_mcp_tools`: connect (which initialises), `tools/list`,
      parse; any failure on the way falls back to the hard-coded tools. */
  function DiscoverTools(rt: Runtime, baseUrl: string, post: (string, Json) -> HttpReply): (s: ToolSet)
    ensures s.Discovered? <==>
              match GetClient(rt, baseUrl, post)
              case Failure(_) => false
              case Success(c) =>
                match ListTools(rt, c, post).outcome
                case Failure(_) => false
                case Success(res) => ParseCatalog(rt, res).Success?
    ensures s.Discovered? ==>
              var c := GetClient(rt, baseUrl, post).value;
              ParseCatalog(rt, ListTools(rt, c, post).outcome.value) == Success(s.tools)
  {
    match GetClient(rt, baseUrl, post)
    case Failure(_) => Fallback
    case Success(c) =>
      match ListTools(rt, c, post).outcome
      case Failure(_) => Fallback
      case Success(res) =>
        match ParseCatalog(rt, res)
        case Failure(_) => Fallback
        case Success(tools) => Discovered(tools)
  }

  /** Discovery asks for the tool list with id 2: the fresh client has
      already spent id 1 on `initialize`. */
  lemma DiscoveryListsWithIdTwo(rt: Runtime, baseUrl: string, post: (string, Json) -> HttpReply)
    requires GetClient(rt, baseUrl, post).Success?
    ensures var c := GetClient(rt, baseUrl, post).value;
            ReadRequest(ListTools(rt, c, post).sent) == Some(Request(2, "tools/list", map[]))
  {
  }

  /** The content extraction of the tool functions: when `content` is
      present and truthy, `result["content"][0].get("text", str(result))`;
      otherwise `str(result)`. Later content items are never looked at. */
  function ExtractText(rt: Runtime, result: Json): (r: Result<Json, string>)
    ensures result.JObj? && ("content" !in result.fields || !Truthy(result.fields["content"])) ==>
              r == Success(JStr(Str(rt, result)))
    ensures result.JObj? && "content" in result.fields && result.fields["content"].JArr?
            && |result.fields["content"].items| > 0 && result.fields["content"].items[0].JObj? ==>
              var first := result.fields["content"].items[0].fields;
              r == Success(if "text" in first then first["text"] else JStr(Str(rt, result)))
    ensures result.JObj? && "content" in result.fields && Truthy(result.fields["content"])
            && !(result.fields["content"].JArr? && result.fields["content"].items[0].JObj?) ==>
              r.Failure?
  {
    var hasContent :- In("content", result);
    if hasContent then
      var content :- Subscript(result, "content");
      if Truthy(content) then
        var first :- First(content);
        Get(first, "text", JStr(Str(rt, result)))
      else Success(JStr(Str(rt, result)))
    else Success(JStr(Str(rt, result)))
  }

  /** A tool function's body: connect, call the tool, extract the text;
      any exception `e` on the way becomes `errorPrefix + str(e)`. It never
      raises. */
  function CallAndExtract(rt: Runtime, baseUrl: string, post: (string, Json) -> HttpReply,
                          toolName: string, arguments: Option<map<string, Json>>, errorPrefix: string): (r: Json)
    ensures GetClient(rt, baseUrl, post).Failure? ==> r == JStr(errorPrefix + GetClient(rt, baseUrl, post).error)
    ensures GetClient(rt, baseUrl, post).Success? ==>
              var out := CallTool(rt, GetClient(rt, baseUrl, post).value, toolName, arguments, post).outcome;
              && (out.Failure? ==> r == JStr(errorPrefix + out.error))
              && (out.Success? && ExtractText(rt, out.value).Failure? ==>
                    r == JStr(errorPrefix + ExtractText(rt, out.value).error))
              && (out.Success? && ExtractText(rt, out.value).Success? ==> r == ExtractText(rt, out.value).value)
  {
    match GetClient(rt, baseUrl, post)
    case Failure(e) => JStr(errorPrefix + e)
    case Success(c) =>
      match CallTool(rt, c, toolName, arguments, post).outcome
      case Failure(e) => JStr(errorPrefix + e)
      case Success(result) =>
        match ExtractText(rt, result)
        case Failure(e) => JStr(errorPrefix + e)
        case Success(text) => text
  }

  /** The envelope the fresh client posts for a tool: connecting spent id
      1, so every tool call carries id 2, with the name and arguments. */
  lemma ToolCallEnvelope(rt: Runtime, baseUrl: string, post: (string, Json) -> HttpReply,
                         toolName: string, arguments: Option<map<string, Json>>)
    requires GetClient(rt, baseUrl, post).Success?
    ensures var c := GetClient(rt, baseUrl, post).value;
            ReadRequest(CallTool(rt, c, toolName, arguments, post).sent)
              == Some(Request(2, "tools/call", CallParams(toolName, arguments)))
  {
  }

  /** A reply `{"result": R}` whose first content item is an object with
      `text` makes the tool function return that text, whatever follows in
      the content list. */
  lemma SuccessfulCallReturnsText(rt: Runtime, baseUrl: string, post: (string, Json) -> HttpReply,
                                  toolName: string, arguments: Option<map<string, Json>>, errorPrefix: string,
                                  result: Json)
    requires GetClient(rt, baseUrl, post).Success?
    requires var c := GetClient(rt, baseUrl, post).value;
             CallTool(rt, c, toolName, arguments, post).outcome == Success(result)
    requires result.JObj? && "content" in result.fields && result.fields["content"].JArr?
    requires |result.fields["content"].items| > 0
    requires result.fields["content"].items[0].JObj? && "text" in result.fields["content"].items[0].fields
    ensures CallAndExtract(rt, baseUrl, post, toolName, arguments, errorPrefix)
              == result.fields["content"].items[0].fields["text"]
  {
  }

  /** A server error reply to the tool call becomes the error string, with
      the server's error object rendered after "MCP Error: ". */
  lemma ErrorReplyBecomesErrorText(rt: Runtime, baseUrl: string, post: (string, Json) -> HttpReply,
                                   toolName: string, arguments: Option<map<string, Json>>, errorPrefix: string,
                                   status: int, body: string, doc: Json)
    requires GetClient(rt, baseUrl, post).Success?
    requires var c := GetClient(rt, baseUrl, post).value;
             post(c.url, CallTool(rt, c, toolName, arguments, post).sent) == HttpReply(status, body)
    requires status < 400 && !BlankBody(body) && rt.parse(body) == Some(doc)
    requires doc.JObj? && "error" in doc.fields
    ensures CallAndExtract(rt, baseUrl, post, toolName, arguments, errorPrefix)
              == JStr(errorPrefix + "MCP Error: " + Str(rt, doc.fields["error"]))
  {
    var c := GetClient(rt, baseUrl, post).value;
    var x := CallTool(rt, c, toolName, arguments, post);
    assert x.outcome == Unwrap(rt, doc);
    assert (errorPrefix + "MCP Error: ") + Str(rt, doc.fields["error"])
           == errorPrefix + ("MCP Error: " + Str(rt, doc.fields["error"]));
  }

  /** A `tools/call` POST that fails (the server unreachable, a status
      from 400 up, or a body that is not JSON) becomes the error string
      instead of an exception; an unreachable server is named by its
      transport error, and a blank body by the `TypeError` of
      `"error" in None`. */
  lemma FailedPostBecomesErrorText(rt: Runtime, baseUrl: string, post: (string, Json) -> HttpReply,
                                   toolName: string, arguments: Option<map<string, Json>>, errorPrefix: string)
    requires GetClient(rt, baseUrl, post).Success?
    requires var c := GetClient(rt, baseUrl, post).value;
             var reply := post(c.url, CallTool(rt, c, toolName, arguments, post).sent);
             || reply.Unreachable?
             || reply.status >= 400
             || BlankBody(reply.body)
             || rt.parse(reply.body).None?
    ensures var r := CallAndExtract(rt, baseUrl, post, toolName, arguments, errorPrefix);
            r.JStr? && StartsWith(r.s, errorPrefix)
    ensures var c := GetClient(rt, baseUrl, post).value;
            var reply := post(c.url, CallTool(rt, c, toolName, arguments, post).sent);
            reply.HttpReply? && reply.status < 400 && BlankBody(reply.body) ==>
              CallAndExtract(rt, baseUrl, post, toolName, arguments, errorPrefix) == JStr(errorPrefix + NotIterable(JNull))
    ensures var c := GetClient(rt, baseUrl, post).value;
            var reply := post(c.url, CallTool(rt, c, toolName, arguments, post).sent);
            reply.Unreachable? ==>
              CallAndExtract(rt, baseUrl, post, toolName, arguments, errorPrefix) == JStr(errorPrefix + reply.reason)
  {
    var c := GetClient(rt, baseUrl, post).value;
    var x := CallTool(rt, c, toolName, arguments, post);
    var e := x.outcome.error;
    StartsWithConcat(errorPrefix, e);
  }

  /** A result whose `content` is a non-empty string makes the extraction
      call `.get` on its first character: the tool function answers with
      the `AttributeError` text. */
  lemma StringContentBecomesErrorText(rt: Runtime, baseUrl: string, post: (string, Json) -> HttpReply,
                                      toolName: string, arguments: Option<map<string, Json>>, errorPrefix: string,
                                      result: Json)
    requires GetClient(rt, baseUrl, post).Success?
    requires var c := GetClient(rt, baseUrl, post).value;
             CallTool(rt, c, toolName, arguments, post).outcome == Success(result)
    requires result.JObj? && "content" in result.fields
    requires result.fields["content"].JStr? && |result.fields["content"].s| > 0
    ensures CallAndExtract(rt, baseUrl, post, toolName, arguments, errorPrefix)
              == JStr(errorPrefix + StrHasNoGet)
  {
    StringContentHasNoGet(rt, result);
  }

  /** The extraction on a non-empty string `content`: `[0]` is a
      one-character string, which has no `.get`. */
  lemma StringContentHasNoGet(rt: Runtime, result: Json)
    requires result.JObj? && "content" in result.fields
    requires result.fields["content"].JStr? && |result.fields["content"].s| > 0
    ensures ExtractText(rt, result) == Failure(StrHasNoGet)
  {
    var content := result.fields["content"];
    assert First(content) == Success(JStr([content.s[0]]));
  }

  /** The error text of a discovered tool. */
  function DynamicErrorPrefix(name: string): string {
    "\U{274C} Error calling " + name + ": "
  }

  /** The arguments `call_tool` receives from a tool function called with
      keyword arguments `kwargs`, or `None` when Python refuses the call
      (keyword arguments given to the zero-argument form). Whatever is
      accepted is forwarded verbatim. */
  function ToolArguments(shape: CallShape, kwargs: map<string, Json>): (r: Option<map<string, Json>>)
    ensures r.None? <==> shape == NoArguments && |kwargs| > 0
    ensures r.Some? ==> r.value == kwargs
  {
    match shape
    case NoArguments => if |kwargs| == 0 then Some(map[]) else None
    case ForwardArguments => Some(kwargs)
  }

  /** Calling the function built for `d`: it raises only when called with
      arguments its form does not accept; otherwise it returns the extracted
      text or "❌ Error calling <name>: <error>". */
  function InvokeDynamicTool(rt: Runtime, baseUrl: string, post: (string, Json) -> HttpReply,
                             d: ToolDescriptor, kwargs: map<string, Json>): (r: Result<Json, string>)
    ensures r.Failure? <==> d.shape == NoArguments && |kwargs| > 0
    ensures r.Success? && GetClient(rt, baseUrl, post).Failure? ==>
              r.value == JStr(DynamicErrorPrefix(d.name) + GetClient(rt, baseUrl, post).error)
    ensures r.Success? && GetClient(rt, baseUrl, post).Success? ==>
              var out := CallTool(rt, GetClient(rt, baseUrl, post).value, d.name, Some(kwargs), post).outcome;
              && (out.Failure? ==> r.value == JStr(DynamicErrorPrefix(d.name) + out.error))
              && (out.Success? && ExtractText(rt, out.value).Failure? ==>
                    r.value == JStr(DynamicErrorPrefix(d.name) + ExtractText(rt, out.value).error))
              && (out.Success? && ExtractText(rt, out.value).Success? ==> r.value == ExtractText(rt, out.value).value)
  {
    match ToolArguments(d.shape, kwargs)
    case None => Failure("dynamic_tool() got an unexpected keyword argument")
    case Some(arguments) => Success(CallAndExtract(rt, baseUrl, post, d.name, Some(arguments), DynamicErrorPrefix(d.name)))
  }

  /** When connecting fails, a discovered tool answers with its error
      string instead of raising. */
  lemma DynamicToolNeverRaises(rt: Runtime, baseUrl: string, post: (string, Json) -> HttpReply,
                               d: ToolDescriptor, kwargs: map<string, Json>)
    requires d.shape == ForwardArguments || |kwargs| == 0
    requires GetClient(rt, baseUrl, post).Failure?
    ensures InvokeDynamicTool(rt, baseUrl, post, d, kwargs)
              == Success(JStr("\U{274C} Error calling " + d.name + ": " + GetClient(rt, baseUrl, post).error))
  {
  }

  /** The five hard-coded tool functions, with their call-site arguments. */
  datatype FixedCall =
    | ListInvoices
    | GetInvoice(invoiceId: string)
    | CreateInvoice(contactId: string, amount: Json, state: Option<string>)
    | ListCustomers
    | TotalInvoiceAmount(startDate: string, endDate: string)

  /** The `state` `create_invoice` sends when its caller gives none. */
  const DefaultInvoiceState := "draft"

  /** The remote tool each hard-coded function calls. */
  function FixedToolName(t: FixedCall): string {
    match t
    case ListInvoices => "listInvoices"
    case GetInvoice(_) => "getInvoice"
    case CreateInvoice(_, _, _) => "createInvoice"
    case ListCustomers => "listCustomers"
    case TotalInvoiceAmount(_, _) => "totalInvoiceAmount"
  }

  /** The arguments each hard-coded function passes. */
  function FixedArguments(t: FixedCall): Option<map<string, Json>> {
    match t
    case ListInvoices => None
    case GetInvoice(id) => Some(map["id" := JStr(id)])
    case CreateInvoice(contactId, amount, state) =>
      Some(map["contactId" := JStr(contactId), "amount" := amount, "state" := JStr(state.GetOr(DefaultInvoiceState))])
    case ListCustomers => None
    case TotalInvoiceAmount(startDate, endDate) =>
      Some(map["startDate" := JStr(startDate), "endDate" := JStr(endDate)])
  }

  /** The error text prefix of each hard-coded function. */
  function FixedErrorPrefix(t: FixedCall): string {
    match t
    case ListInvoices => "\U{274C} Error listing invoices: "
    case GetInvoice(id) => "\U{274C} Error getting invoice " + id + ": "
    case CreateInvoice(_, _, _) => "\U{274C} Error creating invoice: "
    case ListCustomers => "\U{274C} Error listing customers: "
    case TotalInvoiceAmount(_, _) => "\U{274C} Error getting total amount: "
  }

  /** A call of one hard-coded tool function; like a discovered tool, it
      never raises: the first stage that fails gives the function's own
      error text, and otherwise the extracted text is returned. */
  function InvokeFixedTool(rt: Runtime, baseUrl: string, post: (string, Json) -> HttpReply, t: FixedCall): (r: Json)
    ensures GetClient(rt, baseUrl, post).Failure? ==>
              r == JStr(FixedErrorPrefix(t) + GetClient(rt, baseUrl, post).error)
    ensures GetClient(rt, baseUrl, post).Success? ==>
              var out := CallTool(rt, GetClient(rt, baseUrl, post).value, FixedToolName(t), FixedArguments(t), post).outcome;
              && (out.Failure? ==> r == JStr(FixedErrorPrefix(t) + out.error))
              && (out.Success? && ExtractText(rt, out.value).Failure? ==>
                    r == JStr(FixedErrorPrefix(t) + ExtractText(rt, out.value).error))
              && (out.Success? && ExtractText(rt, out.value).Success? ==> r == ExtractText(rt, out.value).value)
  {
    CallAndExtract(rt, baseUrl, post, FixedToolName(t), FixedArguments(t), FixedErrorPrefix(t))
  }

  /** The hard-coded `list_invoices` posts `tools/call` for `listInvoices`
      with id 2 and empty arguments. */
  lemma ListInvoicesEnvelope(rt: Runtime, baseUrl: string, post: (string, Json) -> HttpReply)
    requires GetClient(rt, baseUrl, post).Success?
    ensures var c := GetClient(rt, baseUrl, post).value;
            ReadRequest(CallTool(rt, c, FixedToolName(ListInvoices), FixedArguments(ListInvoices), post).sent)
              == Some(Request(2, "tools/call", map["name" := JStr("listInvoices"), "arguments" := EmptyObject]))
  {
  }

  /** `create_invoice` without a `state` posts `createInvoice` with the
      contact, the amount and the state "draft", again with id 2. */
  lemma CreateInvoiceDefaultsToDraft(rt: Runtime, baseUrl: string, post: (string, Json) -> HttpReply,
                                     contactId: string, amount: Json)
    requires GetClient(rt, baseUrl, post).Success?
    ensures var c := GetClient(rt, baseUrl, post).value;
            var t := CreateInvoice(contactId, amount, None);
            ReadRequest(CallTool(rt, c, FixedToolName(t), FixedArguments(t), post).sent)
              == Some(Request(2, "tools/call",
                              map["name" := JStr("createInvoice"),
                                  "arguments" := JObj(map["contactId" := JStr(contactId), "amount" := amount,
                                                          "state" := JStr("draft")])]))
  {
  }
}

=== FILE: wrappers.dfy ===
/** Option and Result, the failure-compatible wrappers the rest of the model
    uses for absent values and for exceptions raised by the modelled code. */
module Wrappers {

  datatype Option<+T> = None | Some(value: T) {

    predicate IsFailure() {
      None?
    }

    function PropagateFailure<U>(): Option<U>
      requires None?
    {
      None
    }

    function Extract(): T
      requires Some?
    {
      value
    }

    /** The wrapped value, or `default` when there is none. */
    function GetOr(default: T): T {
      match this
      case Some(v) => v
      case None => default
    }
  }

  /** `Failure(e)` stands for an exception whose text is `e`. */
  datatype Result<+T, +E> = Success(value: T) | Failure(error: E) {

    predicate IsFailure() {
      Failure?
    }

    function PropagateFailure<U>(): Result<U, E>
      requires Failure?
    {
      Failure(error)
    }

    function Extract(): T
      requires Success?
    {
      value
    }
  }
}
